=== FILE: README.md ===
# Punta Cana resort microsite — the stateful core of `js/main.js`

The site is one script. Nearly all of it wires scroll-driven animations. This
project models the small pieces inside that wiring that keep state or compute
values, and it proves what the code promises about them. The modules follow
the script's own structure.

- `ImageList` models `parseImagesCsv`. It reads the comma-separated
  `data-images` attribute: it splits at every comma, trims each piece with
  JavaScript's whitespace set, and drops the empty pieces.
- `Frames` models the two-slot cross-fade frame and `transitionFrameTo`. The
  hidden slot receives the next picture, and `data-show` flips between `a`
  and `b`.
- `Selection` holds the shared index arithmetic:
  - scroll progress to slide index;
  - the clamp used by `activateHotel`;
  - the `is-active` toggle over a list;
  - the `% n` wrap of the gallery counters.
- `OptionsGallery` models the option-card galleries: `startOptionsGalleries`,
  `stopOptionsGalleries` and the per-card tick.
- `HotelCarousel` models the pinned hotels carousel: `startGalleryForSlide`
  with its tick, thumbnail strip and 5-second click pause, then
  `stopGalleriesExcept`, `activateHotel`, the scroll handler and page load.
  Each start of a gallery declares fresh `step` and `lastManualAt` variables.
  The model keeps these as one `Activation` per start. The thumbnail handlers
  are built only once per slide and keep updating the variables of the
  activation that built them. The model keeps this behaviour as written.
- `RecapRail` models the recap rail's collapse state, which is persisted to a
  key/value store that may throw on every access.
- `Sorting`, `Chart`, `ChartAxes` and `Resorts` model the performance-curve
  chart preparation:
  - the value index;
  - the stable ascending sort by price;
  - the bounds;
  - the bubble radius;
  - the two linear scales;
  - the price and score ticks;
  - the shipped resort table and what these functions yield for it.

Prices, scores and star ratings are whole numbers, as every record of the
table is. Normalisation, scales and the value index are computed over `real`.
For non-negative integers, `Math.round(v / 1000) * 1000` is
`(v + 500) / 1000 * 1000` and `Math.ceil(r / 5)` is `(r + 4) / 5`. Time
(`performance.now()`), the store and scroll progress are parameters.

## Model

| member | source | states |
|---|---|---|
| `ImageList.Trim` | js/main.js:387 | The result is a slice of the input with no space at either end, and every character dropped on either side is ECMAScript whitespace |
| `ImageList.ParseImagesCsv` | js/main.js:386-388 | An absent or empty attribute gives `[]`; no entry is empty, contains a comma or has a space at either end; there are never more entries than comma-separated pieces. Order and repeats are pinned down by `ParseSingle` and `ParseCons` |
| `ImageList.ParseSingle` | js/main.js:386-388 | An attribute without a comma gives its trimmed text as the only entry, or nothing when that text is empty |
| `ImageList.ParseCons` | js/main.js:386-388 | The entries of `p,q`, for comma-free `p`, are those of `p` followed by those of `q`, in order and with repeats kept |
| `ImageList.CleanAppend` | js/main.js:387 | Trimming and dropping empties over two runs of pieces is doing it to each run and concatenating the results |
| `ImageList.ParsePaddedRepeat` | js/main.js:386-388 | A name written twice with a space after the comma (`"a.jpg, a.jpg"`) gives two entries, so a repeat counts twice towards the two-image guard |
| `ImageList.Split` | js/main.js:387 | `split(',')` always gives at least one piece, and no piece contains a comma; `JoinSplit` and `SplitJoin` make it the inverse of joining with commas |
| `ImageList.Clean` | js/main.js:387 | Trimming the pieces and keeping the non-empty ones gives no more entries than pieces, each non-empty and unpadded |
| `ImageList.ParseContents` | js/main.js:386-388 | A string is in the parsed list exactly when it is non-empty and some comma-separated piece trims to it |
| `ImageList.CleanContents` | js/main.js:387 | Trimming the pieces and dropping the empty ones keeps exactly the non-empty trimmed pieces |
| `ImageList.ParseJoinRoundTrip` | js/main.js:386-388 | A list of non-empty, comma-free, unpadded names written comma-separated parses back to the same list, in order |
| `ImageList.JoinSplit` | js/main.js:387 | Joining the split pieces with commas gives back the attribute text |
| `ImageList.SplitJoin` | js/main.js:387 | Splitting comma-free pieces joined by commas gives back the pieces |
| `ImageList.TrimIdempotent` | js/main.js:387 | Trimming twice is trimming once |
| `Frames.ShownSide` | js/main.js:395-397 | Slot `a` is visible exactly when `data-show` is absent, empty or "a" |
| `Frames.TransitionFrameTo` | js/main.js:390-413 | With a slot missing or an empty source nothing changes. Otherwise both slots stay, the visible side flips, the new visible slot holds the source, and the previously visible slot keeps its picture |
| `Frames.TwoTransitionsRestoreSide` | js/main.js:390-413 | Two transitions restore the original visible side; that slot shows the second picture and the other slot the first |
| `Frames.WithDefaultShow` | js/main.js:458 | Setting the default `data-show` keeps the slots and the visible side and leaves a non-empty value |
| `Selection.ProgressToIndex` | js/main.js:427 | For progress in `[0, 1]` and `n >= 1` slides, the index lies in `[0, n)` |
| `Selection.ProgressToIndexInterval` | js/main.js:427 | Before the end, slide `k` is chosen exactly while `k <= p n < k + 1` |
| `Selection.ProgressAtEnd` | js/main.js:1732 | Progress 1 selects the last slide |
| `Selection.ProgressToIndexMonotone` | js/main.js:427 | More progress never selects an earlier slide |
| `Selection.Clamp` | js/main.js:1662 | The index lies in the slides; an in-range request is kept and out-of-range ones go to the nearest end |
| `Selection.ActiveFlags` | js/main.js:1666-1667 | Element `i` carries `is-active` exactly when `i` is the chosen index |
| `Selection.ExactlyOneActive` | js/main.js:1666-1667 | Exactly one element is active when the index names one, none otherwise |
| `Selection.Succ` | js/main.js:1627 | `(step + 1) % n` is an index, the next one or 0 after the last |
| `Selection.Wrap` | js/main.js:463 | `k % n` is an index of the list, and an index already inside it is kept |
| `Selection.SuccOfWrap` | js/main.js:463-464 | Advancing a wrapped counter equals wrapping the advanced counter |
| `OptionsGallery.StartCard` | js/main.js:453-469 | A card with a frame and two or more images shows image `idx % n` after its first tick; any other card is untouched |
| `OptionsGallery.Launch` | js/main.js:453-471 | Every timeline belongs to a cycling card, carries its image list, has a step inside it set just past `idx % n`, and timelines follow card order |
| `OptionsGallery.LaunchCovers` | js/main.js:455-456 | A card gets a timeline exactly when it has a frame and at least two images |
| `OptionsGallery.OrderedDistinct` | js/main.js:453-471 | No card has two timelines |
| `OptionsGallery.Start` | js/main.js:451-472 | With timelines running nothing happens; otherwise every card gets its first tick and the timelines are launched |
| `OptionsGallery.StartCovers` | js/main.js:451-457 | After a start from idle, exactly the cycling cards have a timeline |
| `OptionsGallery.Stop` | js/main.js:474-477 | Stopping empties the timeline list and leaves the cards as they are |
| `OptionsGallery.Tick` | js/main.js:461-465 | A repeat moves the card's frame to the image at `step`, so the old picture stays in the other slot and nothing else in the card changes; it advances `step` modulo the length and changes no other timeline or card |
| `OptionsGallery.StartValid` | js/main.js:451-472 | Starting keeps every timeline's step inside its list |
| `OptionsGallery.StopValid` | js/main.js:474-477 | The stopped state is well formed |
| `OptionsGallery.TickValid` | js/main.js:461-465 | A repeat keeps every timeline's step inside its list |
| `OptionsGallery.StartIdempotent` | js/main.js:452 | Starting twice is starting once |
| `OptionsGallery.StopThenStart` | js/main.js:482-485 | Leaving and re-entering the section launches the timelines afresh |
| `OptionsGallery.FirstTickOffset` | js/main.js:459-468 | Card `k`'s first picture is image `k % n`, and its step then points at the next one |
| `OptionsGallery.TicksCycle` | js/main.js:461-465 | After `m` repeats the step is the starting step plus `m`, modulo the length |
| `OptionsGallery.EveryImageShown` | js/main.js:461-465 | Within `n` repeats every one of the `n` images comes up |
| `OptionsGallery.Repeat` | js/main.js:461-465 | `m` repeats of one timeline keep the galleries valid, keep its card and list, and leave its step at `StepAfter` of the start |
| `OptionsGallery.RepeatShows` | js/main.js:461-465 | After `m + 1` repeats a card with both slots shows the image at `StepAfter(gal, m)` |
| `OptionsGallery.EveryImageAppears` | js/main.js:461-465 | Every image of a running timeline is shown on its card after some number of repeats between 1 and `n` |
| `HotelCarousel.HighlightAfter` | js/main.js:1634-1636 | The highlighted thumb is the one just before the advanced step, which is the hero image's index |
| `HotelCarousel.Advance` | js/main.js:1623-1637 | Hero, sub1 and sub2 move to images `step`, `step + 1` and `step + 2` mod `n`; the step advances; the strip highlights exactly the hero's thumb; nothing else changes |
| `HotelCarousel.TickOffsetsDistinct` | js/main.js:1624-1626 | With three or more images the three frames show three different positions |
| `HotelCarousel.Tick` | js/main.js:1620-1638 | A repeat of a slide without a timeline, or one within 5000 ms of a click (a click time of 0 counts as none), changes nothing. Otherwise it is `Advance` of the running activation: all three frames, the step and the highlight move, and nothing else changes |
| `HotelCarousel.CoolingDown` | js/main.js:1622 | The 5000 ms pause after a click; a click time of 0 never pauses. Its partners are `ClickPausesCycle` and `ClickThenResume` |
| `HotelCarousel.StartGallery` | js/main.js:1570-1650 | A slide that already has a timeline, has fewer than two images or lacks a frame is untouched. Otherwise a new activation is made, an unbuilt strip is built with thumb 0 active, the first tick shows images 0, 1 and 2 mod `n`, and the timeline is recorded |
| `HotelCarousel.PrepareStart` | js/main.js:1582-1619 | Before the first tick the frames get their default side, an unbuilt strip becomes owned by the new activation, and the state stays reachable |
| `HotelCarousel.FirstTickFrames` | js/main.js:1640-1641 | After the first tick the three frames show images 0, 1 and 2 mod `n`; a two-image slide shows image 0 in sub2 |
| `HotelCarousel.FirstTickThumbs` | js/main.js:1584-1590 | An unbuilt strip belongs to the new activation after a start; an existing strip keeps its owner and highlights thumb 0 |
| `HotelCarousel.StopGalleriesExcept` | js/main.js:1652-1659 | Only the kept slide's timeline can remain, and it remains exactly when it was running |
| `HotelCarousel.MarkActive` | js/main.js:1666 | Slide `i` keeps everything but its `is-active` flag, which is set exactly when `i` is the chosen index |
| `HotelCarousel.ActivateHotel` | js/main.js:1661-1709 | The index is clamped; asking for the current slide changes nothing. Otherwise exactly the chosen slide and dot are active, every other slide is unchanged apart from losing `is-active`, and no other slide has a timeline. An idle chosen slide that can cycle gets exactly one new activation, which is its timeline, and its frames show images 0, 1 and 2 mod `n`. An idle chosen slide that cannot cycle only gains `is-active`, and no activation is made. A chosen slide that was already running keeps its timeline, and no activation is made |
| `HotelCarousel.Reselect` | js/main.js:1664-1707 | The first half of an activation: each slide's `is-active` is set exactly for the chosen index, the dots follow, nothing else in a slide changes, and only the chosen slide may keep its timeline |
| `HotelCarousel.ThumbClick` | js/main.js:1594-1603 | A click on thumb `i` moves the hero to image `i`, highlights only thumb `i`, and sets the owning activation's step to `i` and its click time to now. Nothing else in the clicked slide changes: its `is-active`, side frames and image list stay. No such button means no change |
| `HotelCarousel.OnScroll` | js/main.js:1731-1734 | The carousel stays valid. When the slide for the scroll progress is new, it becomes current and the only active slide and dot, the other slides only lose `is-active`, and only it may have a timeline, which it has exactly when it can cycle. Nothing changes when it is already current |
| `HotelCarousel.OnScrollSelectsBand` | js/main.js:1731-1734 | A progress in the band `[k / n, (k + 1) / n)` makes slide `k` current |
| `HotelCarousel.Init` | js/main.js:1566-1720 | Page load starts with no current slide and no timelines, then activates slide 0: it becomes current and the only active slide, and it alone has a timeline exactly when it can cycle |
| `HotelCarousel.AdvanceValid` | js/main.js:1623-1637 | A repeat keeps the carousel in its reachable states |
| `HotelCarousel.TickValid` | js/main.js:1620-1638 | So does a timeline repeat |
| `HotelCarousel.StartGalleryValid` | js/main.js:1570-1650 | So does starting a gallery |
| `HotelCarousel.ActivateHotelValid` | js/main.js:1661-1709 | So does activating a slide |
| `HotelCarousel.ThumbClickValid` | js/main.js:1594-1603 | So does a thumbnail click |
| `HotelCarousel.InitValid` | js/main.js:1720 | Page load reaches a reachable state |
| `HotelCarousel.ClickPausesCycle` | js/main.js:1622 | Within 5000 ms of a click on the running activation's strip, repeats change nothing |
| `HotelCarousel.ClickThenResume` | js/main.js:1599-1602 | After the pause the next repeat shows the clicked image again and moves the step past it |
| `HotelCarousel.RestartGetsNewActivation` | js/main.js:1584-1619 | A restarted slide runs on a new activation, not the one its thumbnail handlers update |
| `HotelCarousel.ClickMissesRestartedCycle` | js/main.js:1600-1601 | On a restarted slide a click changes neither the timelines nor the running activation |
| `HotelCarousel.ActivateIdempotent` | js/main.js:1663 | Activating the same slide again changes nothing |
| `RecapRail.SetCollapsed` | js/main.js:107-114 | With the rail present the state is set, and the toggle's `aria-expanded`, glyph and title agree. "1" or "0" is stored unless the store fails. Other keys keep their values, and no key but the rail's is added. A missing rail changes nothing |
| `RecapRail.Init` | js/main.js:115-118 | The rail starts collapsed exactly when the store holds "1"; a working store then holds "1" or "0" to match, with every other key unchanged; a failing store gives the expanded default and stays untouched |
| `RecapRail.Toggle` | js/main.js:119 | A click flips the state |
| `RecapRail.ToggleTwice` | js/main.js:107-119 | Two clicks restore the rail |
| `RecapRail.ReloadRestores` | js/main.js:107-118 | The state last set comes back after a reload when the store works |
| `RecapRail.ToggleThenReload` | js/main.js:107-119 | A toggled state survives a reload |
| `RecapRail.OnlyOneMeansCollapsed` | js/main.js:117 | Any stored value other than exactly "1" loads expanded |
| `Chart.ValueIndex` | js/main.js:833-835 | The value index is positive for a positive score, and times the price it gives back 10000 times the score |
| `Chart.ValueIndexMonotone` | js/main.js:834 | At equal price a higher score has the higher value index |
| `Chart.WithValueIndex` | js/main.js:833-835 | Every record gets its value index, in order |
| `Sorting.Insert` | js/main.js:838 | Inserting into a sorted list keeps it sorted and adds exactly the element |
| `Sorting.Sort` | js/main.js:838 | The result is in non-decreasing key order and a permutation of the input |
| `Sorting.SortStable` | js/main.js:838 | Elements with equal keys keep their input order |
| `Chart.SortByPrice` | js/main.js:837-838 | The data ends non-decreasing by price, as a permutation of the input, with equal prices in input order |
| `Chart.Min` | js/main.js:848-853 | The minimum is a member no greater than any element |
| `Chart.Max` | js/main.js:848-853 | The maximum is a member no smaller than any element |
| `Chart.BoundsOf` | js/main.js:848-853 | Every record lies within the bounds, and each bound is attained by some record |
| `Chart.BoundsOfTightest` | js/main.js:848-853 | Any bounds holding every record and each attained are the computed ones |
| `Chart.Normalize` | js/main.js:859-861 | The normalised value is 0 at the low end, 1 at the high end, in `[0, 1]` in between |
| `Chart.NormalizeMonotone` | js/main.js:859-861 | Normalisation is increasing |
| `Chart.Radius` | js/main.js:857-877 | A resort within the bounds gets a radius in `[6, 18]`; the sweet spot gets at least 14 |
| `Chart.RadiusExtremes` | js/main.js:865-870 | The all-minimum resort gets radius 6 and the all-maximum one radius 18 |
| `Chart.RadiusMonotoneInScore` | js/main.js:865 | With price and stars equal, a better score never gets a smaller bubble |
| `Chart.RadiusMonotoneInStars` | js/main.js:865 | With price and score equal, more stars never get a smaller bubble |
| `Chart.RadiusMonotoneInPrice` | js/main.js:865 | With score and stars equal, a dearer resort never gets a smaller bubble |
| `ChartAxes.PriceScale` | js/main.js:880-882 | The cheapest price maps to x = 70 and the dearest to x = 830 |
| `ChartAxes.PriceScaleRoundTrip` | js/main.js:880-882 | The price scale can be inverted |
| `ChartAxes.PriceScaleIncreasing` | js/main.js:880-882 | Dearer prices lie further right |
| `ChartAxes.ScoreScale` | js/main.js:884-886 | The best score maps to y = 50 and the worst to y = 340 |
| `ChartAxes.ScoreScaleDecreasing` | js/main.js:884-886 | Better scores lie higher up |
| `ChartAxes.RoundThousand` | js/main.js:1115 | The result is a multiple of 1000 within 500 of the value |
| `ChartAxes.CeilFifth` | js/main.js:1112 | The result is the least `q` with `5 q >= r` |
| `ChartAxes.RawPriceTicks` | js/main.js:1106-1118 | Six ticks ending at the maximum. Over a range above 200000 they are the fixed round values. Otherwise tick `i < 5` is `minPrice + i * ceil(range / 5)` rounded to the nearest thousand |
| `ChartAxes.Dedupe` | js/main.js:1120 | Duplicates are removed and every value is kept |
| `ChartAxes.SortNoDup` | js/main.js:1120 | Sorting a duplicate-free list gives a strictly increasing list of the same values |
| `ChartAxes.OnPlotIffWithin` | js/main.js:1124 | A tick is skipped exactly when its price lies outside the bounds |
| `ChartAxes.Filter` | js/main.js:1122-1124 | The kept values are exactly those passing the test, and the order stays strictly increasing |
| `ChartAxes.PriceTicks` | js/main.js:1106-1124 | The drawn ticks are strictly increasing, lie within the bounds, include the maximum, and are exactly the raw ticks within the bounds |
| `ChartAxes.StrictlyIncreasingUnique` | js/main.js:1120 | Two strictly increasing lists with the same values are equal |
| `ChartAxes.WidePriceTicks` | js/main.js:1109-1110 | Over a wide range with ends outside `[50000, 200000]` the ticks are the minimum, the four round values and the maximum |
| `ChartAxes.ScoreTickAtIncreasing` | js/main.js:1251 | Later score ticks are larger |
| `ChartAxes.ScoreTicks` | js/main.js:1249-1251 | Six increasing score ticks run from the worst score to the best |
| `ChartAxes.ScoreTickAt` | js/main.js:1251 | Tick 0 is the worst score, tick 5 the best, and every tick in between lies between them; `ScoreTickAtIncreasing` and `ScoreTicksEvenlySpaced` state its order and spacing |
| `ChartAxes.ScoreTicksEvenlySpaced` | js/main.js:1249-1253 | Score tick `i` sits at y = 340 - 58 i |
| `ChartAxes.RoundLabel` | js/main.js:1273 | The label is the nearest whole number |
| `Resorts.NoShippedSweetSpot` | js/main.js:744-830 | No shipped record is the sweet spot |
| `Resorts.ShippedBounds` | js/main.js:744-853 | The shipped bounds are price 41460 to 280000, score 74 to 112, stars 4 to 5 |
| `Resorts.ShippedPointsInRange` | js/main.js:744-877 | Every shipped value index is positive and every shipped radius lies in `[6, 18]` |
| `Resorts.ShippedPriceTicks` | js/main.js:744-1124 | The shipped price axis shows 41460, 50000, 100000, 150000, 200000 and 280000 |

## Left out

- GSAP and ScrollTrigger tweens, timelines, pins, scrub and stagger settings, and SplitType text splitting are left out. They are animation configuration with no state of their own. Timeline repeats become explicit `Tick` calls, and the `is-active` class is the only visual state kept.
- DOM and SVG construction is left out: element creation, attributes, `innerHTML` and the zone, point, grid and label drawing. Only the numbers they use are modelled.
- `generateSmoothedCurve` is left out. It is never called, and it relies on fractional powers and `toFixed` strings.
- Tooltip positioning is left out. It depends on live layout measurements.
- Price-label formatting is left out. It depends on `toFixed` and `toLocaleString('es-MX')`.
- The verdict-card trigonometric offsets and the stat counter animation are left out. Both are tween-driven floating-point effects.
- Dot click-to-scroll is left out. It is a window scroll whose effect reaches the carousel only through `OnScroll`.
- The theme shift on activation (`setNeonThemeFromSection`), the text and frame entrance tweens and the budget-card visibility sets are left out. They are animation only.
- `performance.now()`, scroll progress and `localStorage` become parameters: a `now: real` clock value, a progress `real`, and a store that either fails on every access or holds a key/value map.
- Only the motion-enabled path is modelled. Under `prefers-reduced-motion` the script stops at js/main.js:134, so the option galleries, the hotel carousel and the chart never start there. Only the recap rail runs on that path, and it behaves as modelled.
- The fade of `transitionFrameTo` is left out. The model also always sets the hidden slot's `src`; the source skips the write when the value is already equal, which leaves the same state.
- `Chart.Min`: requires a non-empty list. `Math.min` of an empty table would be `Infinity`, and the shipped table has nine records.
- `Chart.ValueIndex`: requires a positive price. A price of 0 would divide by zero, and no record has one.
- `Chart.Radius`: requires every range to be proper (`min < max`). A degenerate range would divide by zero and give `NaN`.
- `ChartAxes.PriceScale`: requires a proper price range, for the same reason.
- `ChartAxes.ScoreScale`: requires `minScore < maxScore`. With equal scores js/main.js:884-886 divides by zero and gives `NaN`, which is not modelled.
- `ChartAxes.ScoreTicks`: requires `minScore < maxScore`. With equal scores the source's loop at js/main.js:1249-1251 yields six equal ticks, which is not modelled.
- `ChartAxes.RawPriceTicks`: requires `0 <= minPrice < maxPrice`. Negative or degenerate price ranges are not modelled, because the whole-number rounding only matches `Math.round` and `Math.ceil` there.
- `Chart.Max`: requires a non-empty list. `Math.max` of nothing is `-Infinity`, and the shipped table has nine records.
- `Chart.BoundsOf`: requires a non-empty list, for the same reason as `Chart.Min` and `Chart.Max`.
- `Chart.WithValueIndex`: requires every price to be positive, because `score / price` at js/main.js:834 divides by the price. No record has a price of 0.
- `Chart.Normalize`: requires `lo < hi`. A degenerate range at js/main.js:859-861 divides by zero and gives `NaN`, which is not modelled.
- `ChartAxes.PriceTicks`: requires a non-negative minimum price below the maximum, so that the rounding formulas on whole numbers match `Math.round` and `Math.ceil`.
- Resort records: prices, scores and stars are whole numbers. Fractional prices are not modelled.
- `HotelCarousel.Init`: requires a freshly loaded page, where no strip is built yet. Strips built before load have no owning activation in the model.
- Hotel dots are a list independent of the slides. A dot beyond the slides is simply never active.
- A thumb button's `data-index` is always a finite whole number, so the `Number.isFinite` guard never fires and is not modelled.

=== FILE: chart.dfy ===
/**
 Data preparation for the performance-curve chart: the value index of each
 resort, the ascending sort by price, the bounds of price, score and stars,
 and the radius of each resort's bubble.
 */
module Chart {
  import opened Sorting

  /** One record of the resort table. Prices are whole pesos, scores and
      star ratings whole numbers, as in the shipped table. */
  datatype Resort = Resort(name: string, price: int, score: int, stars: int, color: string,
                           hotel: string, monthly: int, isUltraLuxury: bool, isSweetSpot: bool)

  /** A resort together with the value index computed for it at load. */
  datatype Point = Point(resort: Resort, valueIndex: real)

  /** The scale applied to score per peso "for readability". */
  const ValueIndexScale: real := 10000.0

  /** Score per peso, times 10000: positive for a positive score, and it
      recovers the score when multiplied back by the price. */
  function ValueIndex(r: Resort): (vi: real)
    requires r.price > 0
    ensures r.score > 0 ==> vi > 0.0
    ensures vi * r.price as real == r.score as real * ValueIndexScale
  {
    (r.score as real / r.price as real) * ValueIndexScale
  }

  /** For a fixed price, a higher score gives a higher value index. */
  lemma ValueIndexMonotone(r: Resort, s: Resort)
    requires r.price > 0 && r.price == s.price && r.score < s.score
    ensures ValueIndex(r) < ValueIndex(s)
  {
    var p := r.price as real;
    assert ValueIndex(r) * p < ValueIndex(s) * p;
  }

  predicate Priced(rs: seq<Resort>) {
    forall i :: 0 <= i < |rs| ==> rs[i].price > 0
  }

  /** The value index attached to every record, the records in their order. */
  function WithValueIndex(rs: seq<Resort>): (ps: seq<Point>)
    requires Priced(rs)
    ensures |ps| == |rs|
    ensures forall i :: 0 <= i < |rs| ==> ps[i].resort == rs[i]
    ensures forall i :: 0 <= i < |rs| ==>
              ps[i].valueIndex * rs[i].price as real == rs[i].score as real * ValueIndexScale
    ensures forall i :: 0 <= i < |rs| && rs[i].score > 0 ==> ps[i].valueIndex > 0.0
  {
    seq(|rs|, i requires 0 <= i < |rs| => Point(rs[i], ValueIndex(rs[i])))
  }

  function Price(p: Point): int {
    p.resort.price
  }

  /** `resortsData.sort((a, b) => a.price - b.price)`: the points in
      non-decreasing price order, a permutation of the input, with points of
      equal price kept in their input order. */
  function SortByPrice(ps: seq<Point>): (r: seq<Point>)
    ensures SortedBy(r, Price)
    ensures multiset(r) == multiset(ps)
    ensures forall v :: WithKey(r, Price, v) == WithKey(ps, Price, v)
  {
    var r := Sort(ps, Price);
    forall v ensures WithKey(r, Price, v) == WithKey(ps, Price, v) {
      SortStable(ps, Price, v);
    }
    r
  }

  /** `Math.min` of a non-empty list: a member of it, below all the others. */
  function Min(xs: seq<int>): (m: int)
    requires |xs| > 0
    ensures m in xs
    ensures forall i :: 0 <= i < |xs| ==> m <= xs[i]
  {
    if |xs| == 1 then xs[0]
    else
      var m := Min(xs[1..]);
      assert forall i :: 1 <= i < |xs| ==> xs[i] == xs[1..][i - 1];
      if xs[0] <= m then xs[0] else m
  }

  /** `Math.max` of a non-empty list: a member of it, above all the others. */
  function Max(xs: seq<int>): (m: int)
    requires |xs| > 0
    ensures m in xs
    ensures forall i :: 0 <= i < |xs| ==> xs[i] <= m
  {
    if |xs| == 1 then xs[0]
    else
      var m := Max(xs[1..]);
      assert forall i :: 1 <= i < |xs| ==> xs[i] == xs[1..][i - 1];
      if m <= xs[0] then xs[0] else m
  }

  function Prices(ps: seq<Point>): (xs: seq<int>)
    ensures |xs| == |ps| && forall i :: 0 <= i < |ps| ==> xs[i] == ps[i].resort.price
  {
    seq(|ps|, i requires 0 <= i < |ps| => ps[i].resort.price)
  }

  function Scores(ps: seq<Point>): (xs: seq<int>)
    ensures |xs| == |ps| && forall i :: 0 <= i < |ps| ==> xs[i] == ps[i].resort.score
  {
    seq(|ps|, i requires 0 <= i < |ps| => ps[i].resort.score)
  }

  function StarRatings(ps: seq<Point>): (xs: seq<int>)
    ensures |xs| == |ps| && forall i :: 0 <= i < |ps| ==> xs[i] == ps[i].resort.stars
  {
    seq(|ps|, i requires 0 <= i < |ps| => ps[i].resort.stars)
  }

  /** The minima and maxima the scales and the radius use. */
  datatype Bounds = Bounds(minPrice: int, maxPrice: int, minScore: int, maxScore: int,
                           minStars: int, maxStars: int)

  function BoundsOf(ps: seq<Point>): (b: Bounds)
    requires |ps| > 0
    ensures forall i :: 0 <= i < |ps| ==> Within(ps[i].resort, b)
    ensures exists i :: 0 <= i < |ps| && ps[i].resort.price == b.minPrice
    ensures exists i :: 0 <= i < |ps| && ps[i].resort.price == b.maxPrice
    ensures exists i :: 0 <= i < |ps| && ps[i].resort.score == b.minScore
    ensures exists i :: 0 <= i < |ps| && ps[i].resort.score == b.maxScore
    ensures exists i :: 0 <= i < |ps| && ps[i].resort.stars == b.minStars
    ensures exists i :: 0 <= i < |ps| && ps[i].resort.stars == b.maxStars
  {
    Bounds(Min(Prices(ps)), Max(Prices(ps)), Min(Scores(ps)), Max(Scores(ps)),
           Min(StarRatings(ps)), Max(StarRatings(ps)))
  }

  /** The least value that lies in `xs` and is below none of its elements
      is the one `Min` computes; likewise for `Max`. */
  lemma MinUnique(xs: seq<int>, m: int)
    requires m in xs && forall i :: 0 <= i < |xs| ==> m <= xs[i]
    ensures Min(xs) == m
  {
  }

  lemma MaxUnique(xs: seq<int>, m: int)
    requires m in xs && forall i :: 0 <= i < |xs| ==> xs[i] <= m
    ensures Max(xs) == m
  {
  }

  /** The bounds are the tightest ones: any bounds that hold every point and
      are each attained by some point are the ones `BoundsOf` computes. */
  lemma BoundsOfTightest(ps: seq<Point>, b: Bounds)
    requires |ps| > 0
    requires forall i :: 0 <= i < |ps| ==> Within(ps[i].resort, b)
    requires b.minPrice in Prices(ps) && b.maxPrice in Prices(ps)
    requires b.minScore in Scores(ps) && b.maxScore in Scores(ps)
    requires b.minStars in StarRatings(ps) && b.maxStars in StarRatings(ps)
    ensures BoundsOf(ps) == b
  {
    MinUnique(Prices(ps), b.minPrice);
    MaxUnique(Prices(ps), b.maxPrice);
    MinUnique(Scores(ps), b.minScore);
    MaxUnique(Scores(ps), b.maxScore);
    MinUnique(StarRatings(ps), b.minStars);
    MaxUnique(StarRatings(ps), b.maxStars);
  }

  /** Every range is proper, so no normalisation divides by zero. */
  predicate NonDegenerate(b: Bounds) {
    b.minPrice < b.maxPrice && b.minScore < b.maxScore && b.minStars < b.maxStars
  }

  predicate Within(r: Resort, b: Bounds) {
    && b.minPrice <= r.price <= b.maxPrice
    && b.minScore <= r.score <= b.maxScore
    && b.minStars <= r.stars <= b.maxStars
  }

  /** `(v - lo) / (hi - lo)`: 0 at the bottom of the range, 1 at the top,
      in between for values inside it, and increasing in `v`. */
  function Normalize(v: int, lo: int, hi: int): (t: real)
    requires lo < hi
    ensures lo <= v <= hi ==> 0.0 <= t <= 1.0
    ensures v == lo ==> t == 0.0
    ensures v == hi ==> t == 1.0
    ensures t * (hi - lo) as real == (v - lo) as real
  {
    (v - lo) as real / (hi - lo) as real
  }

  lemma NormalizeMonotone(v: int, w: int, lo: int, hi: int)
    requires lo < hi && v < w
    ensures Normalize(v, lo, hi) < Normalize(w, lo, hi)
  {
    DivMonotone((v - lo) as real, (w - lo) as real, (hi - lo) as real);
  }

  lemma DivMonotone(a: real, b: real, d: real)
    requires d > 0.0 && a < b
    ensures a / d < b / d
  {
  }

  const MinRadius: real := 6.0
  const MaxRadius: real := 18.0
  /** The floor the designated best-value point's radius never goes below. */
  const SweetSpotRadius: real := 14.0

  /** `calculateCircleRadius`: `6 + 12 * (0.5 score + 0.3 stars + 0.2 price)`
      over the normalised values, raised to at least 14 for the sweet spot.
      For a resort within the bounds it lies in `[6, 18]`, and in `[14, 18]`
      for the sweet spot. */
  function Radius(r: Resort, b: Bounds): (rad: real)
    requires NonDegenerate(b)
    ensures Within(r, b) ==> MinRadius <= rad <= MaxRadius
    ensures r.isSweetSpot ==> SweetSpotRadius <= rad
  {
    var np := Normalize(r.price, b.minPrice, b.maxPrice);
    var ns := Normalize(r.score, b.minScore, b.maxScore);
    var nst := Normalize(r.stars, b.minStars, b.maxStars);
    var combined := ns * 0.5 + nst * 0.3 + np * 0.2;
    var radius := MinRadius + combined * (MaxRadius - MinRadius);
    if r.isSweetSpot then (if radius < SweetSpotRadius then SweetSpotRadius else radius)
    else radius
  }

  /** The cheapest, lowest-scored, lowest-rated resort gets the smallest
      bubble and the dearest, best-scored, best-rated one the largest. */
  lemma RadiusExtremes(r: Resort, b: Bounds)
    requires NonDegenerate(b) && !r.isSweetSpot
    ensures r.price == b.minPrice && r.score == b.minScore && r.stars == b.minStars ==> Radius(r, b) == MinRadius
    ensures r.price == b.maxPrice && r.score == b.maxScore && r.stars == b.maxStars ==> Radius(r, b) == MaxRadius
  {
  }

  /** With price and stars equal, the better score never gets the smaller bubble. */
  lemma RadiusMonotoneInScore(r: Resort, s: Resort, b: Bounds)
    requires NonDegenerate(b) && r.price == s.price && r.stars == s.stars
    requires r.isSweetSpot == s.isSweetSpot && r.score < s.score
    ensures Radius(r, b) <= Radius(s, b)
  {
    NormalizeMonotone(r.score, s.score, b.minScore, b.maxScore);
  }

  /** With price and score equal, more stars never get the smaller bubble. */
  lemma RadiusMonotoneInStars(r: Resort, s: Resort, b: Bounds)
    requires NonDegenerate(b) && r.price == s.price && r.score == s.score
    requires r.isSweetSpot == s.isSweetSpot && r.stars < s.stars
    ensures Radius(r, b) <= Radius(s, b)
  {
    NormalizeMonotone(r.stars, s.stars, b.minStars, b.maxStars);
  }

  /** With score and stars equal, the dearer resort never gets the smaller
      bubble: price carries a positive weight too. */
  lemma RadiusMonotoneInPrice(r: Resort, s: Resort, b: Bounds)
    requires NonDegenerate(b) && r.score == s.score && r.stars == s.stars
    requires r.isSweetSpot == s.isSweetSpot && r.price < s.price
    ensures Radius(r, b) <= Radius(s, b)
  {
    NormalizeMonotone(r.price, s.price, b.minPrice, b.maxPrice);
  }
}

=== FILE: chart_axes.dfy ===
/**
 The chart's coordinate system: the two linear scales over a 900 x 400
 canvas with fixed padding, the "smart" price ticks of the vertical grid
 lines and x-axis labels, and the six even score ticks of the horizontal grid
 lines and y-axis labels. The grid and the axis labels compute the same
 ticks; they are defined once here.
 */
module ChartAxes {
  import opened Sorting
  import opened Chart

  const SvgWidth: int := 900
  const SvgHeight: int := 400
  const PadTop: int := 50
  const PadRight: int := 70
  const PadBottom: int := 60
  const PadLeft: int := 70
  const ChartWidth: int := SvgWidth - PadLeft - PadRight
  const ChartHeight: int := SvgHeight - PadTop - PadBottom

  predicate PriceRange(b: Bounds) {
    b.minPrice < b.maxPrice
  }

  predicate ScoreRange(b: Bounds) {
    b.minScore < b.maxScore
  }

  /** `priceScale`: the horizontal position of a price, from the left edge
      of the plot (70) at the cheapest price to its right edge (830) at the
      dearest. */
  function PriceScale(price: real, b: Bounds): (x: real)
    requires PriceRange(b)
    ensures price == b.minPrice as real ==> x == PadLeft as real
    ensures price == b.maxPrice as real ==> x == (PadLeft + ChartWidth) as real
  {
    PadLeft as real + (price - b.minPrice as real) / (b.maxPrice - b.minPrice) as real * ChartWidth as real
  }

  /** The price drawn at horizontal position `x`. */
  function PriceAt(x: real, b: Bounds): real
    requires PriceRange(b)
  {
    b.minPrice as real + (x - PadLeft as real) / ChartWidth as real * (b.maxPrice - b.minPrice) as real
  }

  /** `PriceAt` undoes `PriceScale`: distinct prices land on distinct positions. */
  lemma PriceScaleRoundTrip(price: real, b: Bounds)
    requires PriceRange(b)
    ensures PriceAt(PriceScale(price, b), b) == price
  {
    var d := (b.maxPrice - b.minPrice) as real;
    var t := (price - b.minPrice as real) / d;
    assert PriceScale(price, b) - PadLeft as real == t * ChartWidth as real;
    assert t * d == price - b.minPrice as real;
  }

  /** Dearer prices lie further right. */
  lemma PriceScaleIncreasing(p: real, q: real, b: Bounds)
    requires PriceRange(b) && p < q
    ensures PriceScale(p, b) < PriceScale(q, b)
  {
    DivMonotone(p - b.minPrice as real, q - b.minPrice as real, (b.maxPrice - b.minPrice) as real);
  }

  /** `scoreScale`: the vertical position of a score, from the top of the
      plot (50) at the best score down to its bottom (340) at the worst. */
  function ScoreScale(score: real, b: Bounds): (y: real)
    requires ScoreRange(b)
    ensures score == b.maxScore as real ==> y == PadTop as real
    ensures score == b.minScore as real ==> y == (PadTop + ChartHeight) as real
  {
    PadTop as real + ChartHeight as real
      - (score - b.minScore as real) / (b.maxScore - b.minScore) as real * ChartHeight as real
  }

  /** Better scores lie higher up (smaller y). */
  lemma ScoreScaleDecreasing(s: real, t: real, b: Bounds)
    requires ScoreRange(b) && s < t
    ensures ScoreScale(t, b) < ScoreScale(s, b)
  {
    DivMonotone(s - b.minScore as real, t - b.minScore as real, (b.maxScore - b.minScore) as real);
  }

  /** `Math.round(v / 1000) * 1000` for `v >= 0`: the multiple of 1000
      nearest to `v`, halves rounding up. */
  function RoundThousand(v: nat): (r: nat)
    ensures r % 1000 == 0
    ensures v - 500 < r <= v + 500
  {
    (v + 500) / 1000 * 1000
  }

  /** `Math.ceil(r / 5)` for `r >= 0`: the least `q` with `5 q >= r`. */
  function CeilFifth(r: nat): (q: nat)
    ensures 5 * q >= r && (q == 0 || 5 * (q - 1) < r)
  {
    (r + 4) / 5
  }

  /** The tick values before duplicates are removed: over a range wider than
      200000 the cheapest price, four round values and the dearest price;
      otherwise six evenly stepped prices rounded to thousands, the last one
      replaced by the exact maximum. */
  function RawPriceTicks(b: Bounds): (ticks: seq<int>)
    requires 0 <= b.minPrice < b.maxPrice
    ensures |ticks| == 6 && ticks[5] == b.maxPrice
    ensures b.maxPrice - b.minPrice > 200000 ==> ticks == [b.minPrice, 50000, 100000, 150000, 200000, b.maxPrice]
    ensures b.maxPrice - b.minPrice <= 200000 ==>
              forall i :: 0 <= i < 5 ==> ticks[i] % 1000 == 0
    ensures b.maxPrice - b.minPrice <= 200000 ==>
              forall i :: 0 <= i < 5 ==>
                ticks[i] == RoundThousand(b.minPrice + i * CeilFifth(b.maxPrice - b.minPrice))
  {
    var range := b.maxPrice - b.minPrice;
    if range > 200000 then [b.minPrice, 50000, 100000, 150000, 200000, b.maxPrice]
    else
      var step := CeilFifth(range);
      seq(6, i requires 0 <= i < 6 => if i == 5 then b.maxPrice else RoundThousand(b.minPrice + i * step))
  }

  /** `[...new Set(ticks)]`: each value once, at its first occurrence. */
  function Dedupe(s: seq<int>): (r: seq<int>)
    ensures forall x :: x in r <==> x in s
    ensures NoDup(r)
  {
    if s == [] then []
    else
      var t := Dedupe(s[..|s| - 1]);
      assert forall x :: x in s <==> x in s[..|s| - 1] || x == s[|s| - 1] by {
        assert s == s[..|s| - 1] + [s[|s| - 1]];
      }
      if s[|s| - 1] in t then t else t + [s[|s| - 1]]
  }

  predicate NoDup(s: seq<int>) {
    forall i, j :: 0 <= i < j < |s| ==> s[i] != s[j]
  }

  predicate StrictlyIncreasing(s: seq<int>) {
    forall i, j :: 0 <= i < j < |s| ==> s[i] < s[j]
  }

  function Id(x: int): int {
    x
  }

  lemma {:induction false} NoDupCount(s: seq<int>, x: int)
    requires NoDup(s)
    ensures multiset(s)[x] <= 1
  {
    if s != [] {
      assert s == [s[0]] + s[1..];
      NoDupCount(s[1..], x);
      if x == s[0] {
        assert x !in s[1..];
      }
    }
  }

  lemma RepeatCount(s: seq<int>, i: nat, j: nat)
    requires i < j < |s| && s[i] == s[j]
    ensures multiset(s)[s[i]] >= 2
  {
    assert s == s[..j] + s[j..];
    assert s[i] in s[..j];
    assert s[j] in s[j..];
  }

  /** Sorting a list without duplicates gives a strictly increasing list of
      the same values. */
  lemma SortNoDup(s: seq<int>)
    requires NoDup(s)
    ensures StrictlyIncreasing(Sort(s, Id))
    ensures forall x :: x in Sort(s, Id) <==> x in s
  {
    var r := Sort(s, Id);
    forall i, j | 0 <= i < j < |r|
      ensures r[i] < r[j]
    {
      if r[i] == r[j] {
        RepeatCount(r, i, j);
        NoDupCount(s, r[i]);
      }
    }
    forall x ensures x in r <==> x in s {
      assert x in r <==> x in multiset(r);
    }
  }

  /** The skip test of the drawing loop: a tick is drawn unless its position
      falls left of the plot or right of it. */
  predicate OnPlot(v: int, b: Bounds) {
    PriceRange(b) && !(PriceScale(v as real, b) < PadLeft as real || PriceScale(v as real, b) > (PadLeft + ChartWidth) as real)
  }

  /** A tick is on the plot exactly when its price lies within the bounds. */
  lemma OnPlotIffWithin(v: int, b: Bounds)
    requires PriceRange(b)
    ensures OnPlot(v, b) <==> b.minPrice <= v <= b.maxPrice
  {
    if v < b.minPrice {
      PriceScaleIncreasing(v as real, b.minPrice as real, b);
    } else if v > b.maxPrice {
      PriceScaleIncreasing(b.maxPrice as real, v as real, b);
    } else {
      if v > b.minPrice { PriceScaleIncreasing(b.minPrice as real, v as real, b); }
      if v < b.maxPrice { PriceScaleIncreasing(v as real, b.maxPrice as real, b); }
    }
  }

  /** The elements of `s` that pass `keep`, in order. */
  function Filter(s: seq<int>, keep: int -> bool): (r: seq<int>)
    ensures forall x :: x in r <==> x in s && keep(x)
    ensures StrictlyIncreasing(s) ==> StrictlyIncreasing(r)
  {
    if s == [] then []
    else
      var t := Filter(s[1..], keep);
      assert s == [s[0]] + s[1..];
      StrictTail(s);
      if keep(s[0]) then
        StrictCons(s[0], t);
        [s[0]] + t
      else t
  }

  /** The tail of a strictly increasing list is strictly increasing and lies
      above the head. */
  lemma StrictTail(s: seq<int>)
    requires s != []
    ensures StrictlyIncreasing(s) ==> StrictlyIncreasing(s[1..]) && forall x :: x in s[1..] ==> s[0] < x
  {
    if StrictlyIncreasing(s) {
      forall x | x in s[1..] ensures s[0] < x {
        var j :| 0 <= j < |s[1..]| && s[1..][j] == x;
        assert s[j + 1] == x;
      }
    }
  }

  /** A head below everything in a strictly increasing tail gives a strictly
      increasing list. */
  lemma StrictCons(h: int, t: seq<int>)
    ensures StrictlyIncreasing(t) && (forall x :: x in t ==> h < x) ==> StrictlyIncreasing([h] + t)
  {
    var r := [h] + t;
    if StrictlyIncreasing(t) && (forall x :: x in t ==> h < x) {
      forall i, j | 0 <= i < j < |r| ensures r[i] < r[j] {
        if i == 0 { assert r[j] == t[j - 1] && r[j] in t; }
        else { assert r[i] == t[i - 1] && r[j] == t[j - 1]; }
      }
    }
  }

  /** The price ticks drawn on the grid and the x-axis: strictly increasing,
      all within the price bounds, always including the dearest price, and
      exactly the raw tick values that lie within the bounds. */
  function PriceTicks(b: Bounds): (ticks: seq<int>)
    requires 0 <= b.minPrice < b.maxPrice
    ensures StrictlyIncreasing(ticks)
    ensures forall i :: 0 <= i < |ticks| ==> b.minPrice <= ticks[i] <= b.maxPrice
    ensures b.maxPrice in ticks
    ensures forall v :: v in ticks <==> v in RawPriceTicks(b) && b.minPrice <= v <= b.maxPrice
  {
    var raw := RawPriceTicks(b);
    var unique := Dedupe(raw);
    SortNoDup(unique);
    var sorted := Sort(unique, Id);
    var ticks := Filter(sorted, v => OnPlot(v, b));
    forall v ensures OnPlot(v, b) <==> b.minPrice <= v <= b.maxPrice {
      OnPlotIffWithin(v, b);
    }
    assert forall i :: 0 <= i < |ticks| ==> ticks[i] in ticks;
    ticks
  }

  /** Two strictly increasing lists with the same values are the same list. */
  lemma {:induction false} StrictlyIncreasingUnique(a: seq<int>, b: seq<int>)
    requires StrictlyIncreasing(a) && StrictlyIncreasing(b)
    requires forall x :: x in a <==> x in b
    ensures a == b
  {
    assert a != [] ==> a[0] in a && a[0] in b;
    assert b != [] ==> b[0] in b && b[0] in a;
    if a != [] {
      assert a[0] == b[0];
      forall x ensures x in a[1..] <==> x in b[1..] {
        assert x in a[1..] <==> x in a && x != a[0] by {
          assert a == [a[0]] + a[1..];
        }
        assert x in b[1..] <==> x in b && x != b[0] by {
          assert b == [b[0]] + b[1..];
        }
      }
      StrictlyIncreasingUnique(a[1..], b[1..]);
      assert a == [a[0]] + a[1..] && b == [b[0]] + b[1..];
    }
  }

  /** Over a range wider than 200000 whose ends lie outside `[50000, 200000]`,
      the axis shows the cheapest price, the four round values and the dearest
      price, in that order. */
  lemma WidePriceTicks(b: Bounds)
    requires 0 <= b.minPrice < 50000 && 200000 < b.maxPrice
    requires b.maxPrice - b.minPrice > 200000
    ensures PriceTicks(b) == [b.minPrice, 50000, 100000, 150000, 200000, b.maxPrice]
  {
    var expected := [b.minPrice, 50000, 100000, 150000, 200000, b.maxPrice];
    assert StrictlyIncreasing(expected);
    StrictlyIncreasingUnique(PriceTicks(b), expected);
  }

  /** The number of steps between score ticks. */
  const ScoreSteps: int := 5

  /** `minScore + (i / 5) * (maxScore - minScore)`: the `i`-th score tick. */
  function ScoreTickAt(b: Bounds, i: int): (score: real)
    ensures i == 0 ==> score == b.minScore as real
    ensures i == ScoreSteps ==> score == b.maxScore as real
    ensures 0 <= i <= ScoreSteps && b.minScore <= b.maxScore ==>
              b.minScore as real <= score <= b.maxScore as real
  {
    var d := (b.maxScore - b.minScore) as real;
    var x := i as real / ScoreSteps as real;
    assert 0 <= i <= ScoreSteps && b.minScore <= b.maxScore ==> 0.0 <= x * d <= d by {
      if 0 <= i <= ScoreSteps && b.minScore <= b.maxScore {
        FractionOf(x, d);
      }
    }
    b.minScore as real + x * d
  }

  /** A fraction between 0 and 1 of a non-negative length lies between 0 and it. */
  lemma FractionOf(x: real, d: real)
    requires 0.0 <= x <= 1.0 && 0.0 <= d
    ensures 0.0 <= x * d <= d
  {
    assert d - x * d == (1.0 - x) * d;
  }

  /** Later score ticks are higher. */
  lemma ScoreTickAtIncreasing(b: Bounds, i: int, j: int)
    requires ScoreRange(b) && i < j
    ensures ScoreTickAt(b, i) < ScoreTickAt(b, j)
  {
    ScoreTickGap(b, i, j);
    PositiveProduct((j - i) as real / ScoreSteps as real, (b.maxScore - b.minScore) as real);
    LessFromDifference(ScoreTickAt(b, i), ScoreTickAt(b, j),
                       (j - i) as real / ScoreSteps as real * (b.maxScore - b.minScore) as real);
  }

  /** The distance between two score ticks is their index distance times a
      fifth of the score range. */
  lemma ScoreTickGap(b: Bounds, i: int, j: int)
    ensures ScoreTickAt(b, j) - ScoreTickAt(b, i)
            == (j - i) as real / ScoreSteps as real * (b.maxScore - b.minScore) as real
  {
    var d := (b.maxScore - b.minScore) as real;
    var x := i as real / ScoreSteps as real;
    var y := j as real / ScoreSteps as real;
    assert (j - i) as real / ScoreSteps as real == y - x;
    assert y * d - x * d == (y - x) * d;
  }

  lemma PositiveProduct(a: real, b: real)
    requires a > 0.0 && b > 0.0
    ensures a * b > 0.0
  {
  }

  lemma LessFromDifference(lo: real, hi: real, gap: real)
    requires hi - lo == gap && gap > 0.0
    ensures lo < hi
  {
  }

  /** The six score ticks, from the worst score to the best. */
  function ScoreTicks(b: Bounds): (ticks: seq<real>)
    requires ScoreRange(b)
    ensures |ticks| == ScoreSteps + 1
    ensures ticks[0] == b.minScore as real && ticks[ScoreSteps] == b.maxScore as real
    ensures forall i, j :: 0 <= i < j < |ticks| ==> ticks[i] < ticks[j]
  {
    var ticks := seq(ScoreSteps + 1, i requires 0 <= i <= ScoreSteps => ScoreTickAt(b, i));
    forall i, j | 0 <= i < j < |ticks| ensures ticks[i] < ticks[j] {
      ScoreTickAtIncreasing(b, i, j);
    }
    ticks
  }

  /** The score ticks sit on six evenly spaced horizontal lines, 58 pixels
      apart, from the bottom of the plot to its top. */
  lemma ScoreTicksEvenlySpaced(b: Bounds, i: nat)
    requires ScoreRange(b) && i <= ScoreSteps
    ensures ScoreScale(ScoreTicks(b)[i], b) == (PadTop + ChartHeight) as real - i as real * 58.0
  {
    var d := (b.maxScore - b.minScore) as real;
    var t := ScoreTicks(b)[i];
    assert t - b.minScore as real == (i as real / 5.0) * d;
    assert (t - b.minScore as real) / d == i as real / 5.0;
  }

  /** `Math.round` of a score tick for its label: the nearest whole number,
      halves rounding up. */
  function RoundLabel(v: real): (n: int)
    ensures v - 0.5 < n as real <= v + 0.5
  {
    (v + 0.5).Floor
  }
}

=== FILE: frames.dfy ===
/**
 The two-slot image frame used by every cycling gallery. A frame holds two
 stacked images, slot `a` and slot `b`, and a `show` attribute naming the one
 currently visible. A transition loads the next picture into the hidden slot
 and makes it the visible one; the fade itself is animation and not modelled.
 */
module Frames {
  import opened Wrappers

  datatype Side = A | B

  /** An `<img>` element; `src` is None when the attribute is unset. */
  datatype Img = Img(src: Option<string>)

  /** A frame element: its `.img-a` and `.img-b` children, either of which may
      be missing, and its `data-show` attribute, which may be absent. */
  datatype Frame = Frame(a: Option<Img>, b: Option<Img>, show: Option<string>)

  function Other(side: Side): Side {
    if side == A then B else A
  }

  /** The visible slot: `a` when `data-show` is absent, empty or "a", `b` for
      any other value. */
  function ShownSide(f: Frame): (side: Side)
    ensures side == A <==> f.show.GetOr([]) in {[], "a"}
  {
    if f.show.GetOr([]) == [] || f.show.GetOr([]) == "a" then A else B
  }

  function Slot(f: Frame, side: Side): Option<Img> {
    if side == A then f.a else f.b
  }

  /** The `src` of the image in slot `side`, None when the slot or its
      attribute is missing. */
  function SrcOf(f: Frame, side: Side): Option<string> {
    match Slot(f, side)
    case None => None
    case Some(img) => img.src
  }

  /** The picture the frame currently shows. */
  function VisibleSrc(f: Frame): Option<string> {
    SrcOf(f, ShownSide(f))
  }

  predicate HasSlots(f: Frame) {
    f.a.Some? && f.b.Some?
  }

  /** `transitionFrameTo`: nothing happens when a slot is missing or the next
      source is empty. Otherwise the hidden slot receives `next`, becomes the
      visible one, and the slot that was visible keeps its picture. */
  function TransitionFrameTo(f: Frame, next: string): (r: Frame)
    ensures !HasSlots(f) || next == [] ==> r == f
    ensures HasSlots(f) && next != [] ==>
              && HasSlots(r)
              && ShownSide(r) == Other(ShownSide(f))
              && VisibleSrc(r) == Some(next)
              && SrcOf(r, ShownSide(f)) == VisibleSrc(f)
              && r.show.Some?
  {
    if !HasSlots(f) || next == [] then f
    else if ShownSide(f) == A then Frame(f.a, Some(Img(Some(next))), Some("b"))
    else Frame(Some(Img(Some(next))), f.b, Some("a"))
  }

  /** A frame that may itself be missing: a missing frame stays missing. */
  function TransitionIfPresent(f: Option<Frame>, next: string): (r: Option<Frame>)
    ensures r.Some? <==> f.Some?
    ensures f.Some? ==> r.value == TransitionFrameTo(f.value, next)
  {
    match f
    case None => None
    case Some(fr) => Some(TransitionFrameTo(fr, next))
  }

  /** The baseline the galleries establish before they start: a frame without
      a `data-show` value is set to show slot `a`. */
  function WithDefaultShow(f: Frame): (r: Frame)
    ensures ShownSide(r) == ShownSide(f)
    ensures r.a == f.a && r.b == f.b
    ensures r.show.Some? && r.show.value != []
  {
    if f.show.GetOr([]) == [] then f.(show := Some("a")) else f
  }

  /** Two transitions bring the frame back to the slot it showed at first;
      that slot now holds the second picture and the other slot the first. */
  lemma TwoTransitionsRestoreSide(f: Frame, x: string, y: string)
    requires HasSlots(f) && x != [] && y != []
    ensures ShownSide(TransitionFrameTo(TransitionFrameTo(f, x), y)) == ShownSide(f)
    ensures VisibleSrc(TransitionFrameTo(TransitionFrameTo(f, x), y)) == Some(y)
    ensures SrcOf(TransitionFrameTo(TransitionFrameTo(f, x), y), Other(ShownSide(f))) == Some(x)
  {
    var g := TransitionFrameTo(f, x);
    assert Other(Other(ShownSide(f))) == ShownSide(f);
  }
}

=== FILE: hotel_carousel.dfy ===
/**
 The pinned hotels carousel. Scroll progress selects one slide; activating a
 slide marks it and its dot active, stops every other slide's gallery and
 starts its own. A slide's gallery shows three frames (hero, sub1, sub2) at
 consecutive offsets of its image list and advances on every repeat; a
 thumbnail strip lets the user pick the hero picture, which pauses the
 automatic cycle for five seconds.

 Each start of a gallery declares fresh `step` and `lastManualAt` variables;
 they are modelled as an `Activation`, and every activation ever made is
 kept, because the thumbnail click handlers, built only once per slide, keep
 using the variables of the activation that built them.
 */
module HotelCarousel {
  import opened Wrappers
  import opened ImageList
  import opened Frames
  import opened Selection

  /** How long, in milliseconds, a thumbnail click pauses the automatic cycle. */
  const CooldownMs: real := 5000.0

  /** A `.hotel-thumbs` strip: not yet built, or built by activation `owner`
      (whose variables its click handlers update) with one `is-active` flag
      per button. */
  datatype Thumbs = Unbuilt | Built(owner: nat, active: seq<bool>)

  /** A hotel slide: its `data-images` attribute, its three frames, its
      thumbnail strip (each of which may be missing) and its `is-active` class. */
  datatype Slide = Slide(images: Option<string>, hero: Option<Frame>, sub1: Option<Frame>,
                         sub2: Option<Frame>, thumbs: Option<Thumbs>, active: bool)

  /** One call of `startGalleryForSlide` that got past its guards: the slide,
      its image list, and the `step` and `lastManualAt` variables it declared. */
  datatype Activation = Activation(slide: nat, images: seq<string>, step: nat, lastManualAt: real)

  /** The carousel: slides, dot flags, `currentHotelIndex`, the running
      timelines (slide to activation) and every activation made so far. */
  datatype Carousel = Carousel(slides: seq<Slide>, dots: seq<bool>, current: int,
                               running: map<nat, nat>, activations: seq<Activation>)

  function Images(s: Slide): seq<string> {
    ParseImagesCsv(s.images)
  }

  predicate HasFrames(s: Slide) {
    s.hero.Some? && s.sub1.Some? && s.sub2.Some?
  }

  /** The start guards: at least two images and all three frames. */
  predicate CanCycle(s: Slide) {
    |Images(s)| >= 2 && HasFrames(s)
  }

  /** Activation `a` was made for one of `slides` and its step indexes its list. */
  predicate ActivationOk(a: Activation, slides: seq<Slide>) {
    && a.slide < |slides|
    && CanCycle(slides[a.slide])
    && a.images == Images(slides[a.slide])
    && a.step < |a.images|
    && slides[a.slide].thumbs != Some(Unbuilt)
  }

  /** A built strip of slide `k` belongs to an activation of that slide and
      has one button per image. */
  predicate ThumbsOk(s: Slide, k: nat, acts: seq<Activation>) {
    s.thumbs.Some? && s.thumbs.value.Built? ==>
      var o := s.thumbs.value.owner;
      o < |acts| && acts[o].slide == k && |s.thumbs.value.active| == |acts[o].images|
  }

  predicate RunningOk(c: Carousel) {
    forall k :: k in c.running ==>
      k < |c.slides| && c.running[k] < |c.activations| && c.activations[c.running[k]].slide == k
  }

  predicate ActivationsOk(c: Carousel) {
    forall id :: 0 <= id < |c.activations| ==> ActivationOk(c.activations[id], c.slides)
  }

  predicate AllThumbsOk(c: Carousel) {
    forall k :: 0 <= k < |c.slides| ==> ThumbsOk(c.slides[k], k, c.activations)
  }

  /** The states the carousel can reach. */
  predicate Valid(c: Carousel) {
    && |c.slides| >= 1
    && -1 <= c.current < |c.slides|
    && RunningOk(c)
    && ActivationsOk(c)
    && AllThumbsOk(c)
  }

  /** Every entry of an image list is a usable source; parsed lists are. */
  predicate NoEmptyEntry(images: seq<string>) {
    forall i :: 0 <= i < |images| ==> images[i] != []
  }

  /** The picture a frame that may be missing shows. */
  function Shows(f: Option<Frame>): Option<string> {
    if f.Some? then VisibleSrc(f.value) else None
  }

  predicate FrameReady(f: Option<Frame>) {
    f.Some? && HasSlots(f.value)
  }

  /** The thumb index the tick highlights: `(step - 1 + n) % n` for the
      already advanced step, which is the index of the hero image. */
  function HighlightAfter(step: nat, n: nat): (idx: nat)
    requires 0 < n && step < n
    ensures idx < n
    ensures Wrap(idx + 1, n) == step
  {
    HighlightIndex(step, n);
    Wrap(step - 1 + n, n)
  }

  lemma HighlightIndex(step: nat, n: nat)
    requires 0 < n && step < n
    ensures Wrap(step - 1 + n, n) == (if step == 0 then n - 1 else step - 1)
    ensures Wrap(Wrap(step - 1 + n, n) + 1, n) == step
  {
    if step == 0 {
      ModUnique(n - 1 + n, n, 1, n - 1);
      ModUnique(n, n, 1, 0);
    } else {
      ModUnique(step - 1 + n, n, 1, step - 1);
    }
  }

  /** The body of the gallery tick without its cooldown test: the three
      frames move to images `step`, `step + 1`, `step + 2` (modulo `n`), the
      step advances, and the strip highlights the hero image's thumb. */
  function Advance(c: Carousel, id: nat): (r: Carousel)
    requires id < |c.activations|
    requires c.activations[id].slide < |c.slides| && c.activations[id].step < |c.activations[id].images|
    requires NoEmptyEntry(c.activations[id].images)
    ensures var a := c.activations[id];
            var n := |a.images|;
            var k := a.slide;
            && |r.slides| == |c.slides| && r.dots == c.dots && r.current == c.current && r.running == c.running
            && |r.activations| == |c.activations|
            && r.activations[id] == a.(step := Succ(a.step, n))
            && (forall j :: 0 <= j < |c.activations| && j != id ==> r.activations[j] == c.activations[j])
            && (forall j :: 0 <= j < |c.slides| && j != k ==> r.slides[j] == c.slides[j])
            && r.slides[k].images == c.slides[k].images && r.slides[k].active == c.slides[k].active
            && (FrameReady(c.slides[k].hero) ==> Shows(r.slides[k].hero) == Some(a.images[a.step]))
            && (FrameReady(c.slides[k].sub1) ==> Shows(r.slides[k].sub1) == Some(a.images[Wrap(a.step + 1, n)]))
            && (FrameReady(c.slides[k].sub2) ==> Shows(r.slides[k].sub2) == Some(a.images[Wrap(a.step + 2, n)]))
            && (c.slides[k].hero.Some? <==> r.slides[k].hero.Some?)
            && (c.slides[k].sub1.Some? <==> r.slides[k].sub1.Some?)
            && (c.slides[k].sub2.Some? <==> r.slides[k].sub2.Some?)
            && (match c.slides[k].thumbs
                case Some(Built(o, act)) =>
                  r.slides[k].thumbs == Some(Built(o, ActiveFlags(|act|, a.step)))
                case _ => r.slides[k].thumbs == c.slides[k].thumbs)
  {
    var a := c.activations[id];
    var n := |a.images|;
    var k := a.slide;
    var s := c.slides[k];
    var step' := Succ(a.step, n);
    var thumbs' := match s.thumbs
      case Some(Built(o, act)) => Some(Built(o, ActiveFlags(|act|, HighlightAfter(step', n))))
      case _ => s.thumbs;
    var s' := s.(hero := TransitionIfPresent(s.hero, a.images[Wrap(a.step, n)]),
                 sub1 := TransitionIfPresent(s.sub1, a.images[Wrap(a.step + 1, n)]),
                 sub2 := TransitionIfPresent(s.sub2, a.images[Wrap(a.step + 2, n)]),
                 thumbs := thumbs');
    assert Wrap(HighlightAfter(step', n) + 1, n) == step';
    SuccOfWrap(a.step, n);
    WrapInjective(HighlightAfter(step', n) + 1, a.step + 1, n);
    c.(slides := c.slides[k := s'], activations := c.activations[id := a.(step := step')])
  }

  /** Two counters in `[1, n]` with the same remainder are equal. */
  lemma WrapInjective(x: int, y: int, n: int)
    requires n > 0 && 1 <= x <= n && 1 <= y <= n && Wrap(x, n) == Wrap(y, n)
    ensures x == y
  {
    if x == n { ModUnique(x, n, 1, 0); } else { ModUnique(x, n, 0, x); }
    if y == n { ModUnique(y, n, 1, 0); } else { ModUnique(y, n, 0, y); }
  }

  /** A thumbnail click `lastManualAt` ms ago still pauses the cycle at time
      `now`; a `lastManualAt` of 0 (no click yet) never does. */
  function CoolingDown(a: Activation, now: real): (paused: bool)
    ensures a.lastManualAt == 0.0 ==> !paused
    ensures now >= a.lastManualAt + CooldownMs ==> !paused
    ensures a.lastManualAt != 0.0 && a.lastManualAt <= now < a.lastManualAt + CooldownMs ==> paused
  {
    a.lastManualAt != 0.0 && now - a.lastManualAt < CooldownMs
  }

  /** One repeat of slide `k`'s timeline at time `now`. */
  function Tick(c: Carousel, k: nat, now: real): (r: Carousel)
    requires Valid(c)
    ensures k !in c.running ==> r == c
    ensures k in c.running && CoolingDown(c.activations[c.running[k]], now) ==> r == c
    ensures k in c.running && !CoolingDown(c.activations[c.running[k]], now) ==>
              var a := c.activations[c.running[k]];
              && |r.slides| == |c.slides| && |r.activations| == |c.activations|
              && r.activations[c.running[k]] == a.(step := Succ(a.step, |a.images|))
              && (FrameReady(c.slides[k].hero) ==> Shows(r.slides[k].hero) == Some(a.images[a.step]))
              && r.running == c.running
    ensures k in c.running && !CoolingDown(c.activations[c.running[k]], now) ==>
              r == Advance(c, c.running[k])
  {
    if k !in c.running then c
    else
      var id := c.running[k];
      var a := c.activations[id];
      assert ActivationOk(a, c.slides);
      if CoolingDown(a, now) then c
      else Advance(c, id)
  }

  /** `startGalleryForSlide`: nothing happens when slide `k` already has a
      timeline or fails a guard; otherwise a new activation is made, the
      thumbnail strip is built if it was not yet, the first tick shows images
      0, 1 and 2 modulo the list length, and the timeline is recorded for the slide. */
  function StartGallery(c: Carousel, k: nat): (r: Carousel)
    requires Valid(c) && k < |c.slides|
    ensures k in c.running || !CanCycle(c.slides[k]) ==> r == c
    ensures k !in c.running && CanCycle(c.slides[k]) ==>
              var id := |c.activations|;
              var imgs := Images(c.slides[k]);
              && r.running == c.running[k := id]
              && r.activations == c.activations + [Activation(k, imgs, Succ(0, |imgs|), 0.0)]
              && r.dots == c.dots && r.current == c.current && |r.slides| == |c.slides|
              && (forall j :: 0 <= j < |c.slides| && j != k ==> r.slides[j] == c.slides[j])
              && r.slides[k].images == c.slides[k].images && r.slides[k].active == c.slides[k].active
              && HasFrames(r.slides[k])
              && (FrameReady(c.slides[k].hero) ==> Shows(r.slides[k].hero) == Some(imgs[0]))
              && (FrameReady(c.slides[k].sub1) ==> Shows(r.slides[k].sub1) == Some(imgs[1]))
              && (FrameReady(c.slides[k].sub2) ==> Shows(r.slides[k].sub2) == Some(imgs[Wrap(2, |imgs|)]))
              && (c.slides[k].thumbs == Some(Unbuilt) ==>
                    r.slides[k].thumbs == Some(Built(id, ActiveFlags(|imgs|, 0))))
              && (c.slides[k].thumbs == None ==> r.slides[k].thumbs == None)
              && (forall o, act :: c.slides[k].thumbs == Some(Built(o, act)) ==>
                    r.slides[k].thumbs == Some(Built(o, ActiveFlags(|act|, 0))))
  {
    if k in c.running || !CanCycle(c.slides[k]) then c
    else
      var id := |c.activations|;
      var c2 := Advance(PrepareStart(c, k), id);
      FirstTickFrames(c, k);
      FirstTickThumbs(c, k);
      c2.(running := c2.running[k := id])
  }

  /** After the first tick the three frames show images 0, 1 and 2 modulo
      the list length (a two-image slide shows image 0 in sub2). */
  lemma FirstTickFrames(c: Carousel, k: nat)
    requires Valid(c) && k < |c.slides| && k !in c.running && CanCycle(c.slides[k])
    ensures var id := |c.activations|;
            var imgs := Images(c.slides[k]);
            var r := Advance(PrepareStart(c, k), id);
            && r.activations == c.activations + [Activation(k, imgs, Succ(0, |imgs|), 0.0)]
            && r.dots == c.dots && r.current == c.current && |r.slides| == |c.slides|
            && r.running == c.running
            && (forall j :: 0 <= j < |c.slides| && j != k ==> r.slides[j] == c.slides[j])
            && r.slides[k].images == c.slides[k].images && r.slides[k].active == c.slides[k].active
            && HasFrames(r.slides[k])
            && (FrameReady(c.slides[k].hero) ==> Shows(r.slides[k].hero) == Some(imgs[0]))
            && (FrameReady(c.slides[k].sub1) ==> Shows(r.slides[k].sub1) == Some(imgs[1]))
            && (FrameReady(c.slides[k].sub2) ==> Shows(r.slides[k].sub2) == Some(imgs[Wrap(2, |imgs|)]))
  {
    var c1 := PrepareStart(c, k);
    var id := |c.activations|;
    var imgs := Images(c.slides[k]);
    assert c1.activations[id] == Activation(k, imgs, 0, 0.0);
    var r := Advance(c1, id);
    assert r.activations[id] == Activation(k, imgs, Succ(0, |imgs|), 0.0);
    assert Wrap(0, |imgs|) == 0 && Wrap(1, |imgs|) == 1;
  }

  /** After the first tick a strip that was unbuilt belongs to the new
      activation, and any strip highlights its first thumb. */
  lemma FirstTickThumbs(c: Carousel, k: nat)
    requires Valid(c) && k < |c.slides| && k !in c.running && CanCycle(c.slides[k])
    ensures var id := |c.activations|;
            var imgs := Images(c.slides[k]);
            var r := Advance(PrepareStart(c, k), id);
            && (c.slides[k].thumbs == Some(Unbuilt) ==>
                  r.slides[k].thumbs == Some(Built(id, ActiveFlags(|imgs|, 0))))
            && (c.slides[k].thumbs == None ==> r.slides[k].thumbs == None)
            && (forall o, act :: c.slides[k].thumbs == Some(Built(o, act)) ==>
                  r.slides[k].thumbs == Some(Built(o, ActiveFlags(|act|, 0))))
  {
    var c1 := PrepareStart(c, k);
    var id := |c.activations|;
    assert c1.activations[id].step == 0 && c1.activations[id].slide == k;
  }

  /** What `startGalleryForSlide` does before its first tick: every frame
      gets its default `data-show`, an unbuilt strip is built with the first
      thumb highlighted, and a new activation at step 0 is made. The result
      is a reachable state that the first tick can advance. */
  function PrepareStart(c: Carousel, k: nat): (r: Carousel)
    requires Valid(c) && k < |c.slides| && k !in c.running && CanCycle(c.slides[k])
    ensures Valid(r)
    ensures r.running == c.running && r.dots == c.dots && r.current == c.current
    ensures r.activations == c.activations + [Activation(k, Images(c.slides[k]), 0, 0.0)]
    ensures |r.slides| == |c.slides|
    ensures forall j :: 0 <= j < |c.slides| && j != k ==> r.slides[j] == c.slides[j]
    ensures r.slides[k].images == c.slides[k].images && r.slides[k].active == c.slides[k].active
    ensures HasFrames(r.slides[k])
    ensures FrameReady(c.slides[k].hero) ==> FrameReady(r.slides[k].hero)
    ensures FrameReady(c.slides[k].sub1) ==> FrameReady(r.slides[k].sub1)
    ensures FrameReady(c.slides[k].sub2) ==> FrameReady(r.slides[k].sub2)
    ensures c.slides[k].thumbs == Some(Unbuilt) ==>
              r.slides[k].thumbs == Some(Built(|c.activations|, ActiveFlags(|Images(c.slides[k])|, 0)))
    ensures c.slides[k].thumbs != Some(Unbuilt) ==> r.slides[k].thumbs == c.slides[k].thumbs
  {
    var s := c.slides[k];
    var imgs := Images(s);
    var id := |c.activations|;
    var thumbs' := if s.thumbs == Some(Unbuilt) then Some(Built(id, ActiveFlags(|imgs|, 0))) else s.thumbs;
    var s' := s.(hero := Some(WithDefaultShow(s.hero.value)),
                 sub1 := Some(WithDefaultShow(s.sub1.value)),
                 sub2 := Some(WithDefaultShow(s.sub2.value)),
                 thumbs := thumbs');
    var r := c.(slides := c.slides[k := s'], activations := c.activations + [Activation(k, imgs, 0, 0.0)]);
    PrepareStartValid(c, r, k);
    r
  }

  lemma PrepareStartValid(c: Carousel, r: Carousel, k: nat)
    requires Valid(c) && k < |c.slides| && k !in c.running && CanCycle(c.slides[k])
    requires r.running == c.running && r.current == c.current
    requires r.activations == c.activations + [Activation(k, Images(c.slides[k]), 0, 0.0)]
    requires |r.slides| == |c.slides|
    requires forall j :: 0 <= j < |c.slides| && j != k ==> r.slides[j] == c.slides[j]
    requires r.slides[k].images == c.slides[k].images && HasFrames(r.slides[k])
    requires r.slides[k].thumbs != Some(Unbuilt)
    requires c.slides[k].thumbs == Some(Unbuilt) ==>
               r.slides[k].thumbs == Some(Built(|c.activations|, ActiveFlags(|Images(c.slides[k])|, 0)))
    requires c.slides[k].thumbs != Some(Unbuilt) ==> r.slides[k].thumbs == c.slides[k].thumbs
    ensures Valid(r)
  {
    var id := |c.activations|;
    forall j | 0 <= j < |r.activations|
      ensures ActivationOk(r.activations[j], r.slides)
    {
      if j < id {
        assert r.activations[j] == c.activations[j];
        assert ActivationOk(c.activations[j], c.slides);
        var sj := r.activations[j].slide;
        if sj != k {
          assert r.slides[sj] == c.slides[sj];
        }
      }
    }
    forall j | 0 <= j < |r.slides|
      ensures ThumbsOk(r.slides[j], j, r.activations)
    {
      assert ThumbsOk(c.slides[j], j, c.activations);
      if j != k && IsBuilt(c.slides[j].thumbs) {
        assert r.activations[c.slides[j].thumbs.value.owner] == c.activations[c.slides[j].thumbs.value.owner];
      }
    }
  }

  /** `stopGalleriesExcept`: every timeline but slide `k`'s is killed. */
  function StopGalleriesExcept(c: Carousel, k: nat): (r: Carousel)
    ensures r.running.Keys <= {k}
    ensures k in r.running <==> k in c.running
    ensures k in r.running ==> r.running[k] == c.running[k]
    ensures r.slides == c.slides && r.dots == c.dots && r.current == c.current
    ensures r.activations == c.activations
  {
    c.(running := map j | j in c.running && j == k :: c.running[j])
  }

  lemma StopGalleriesExceptValid(c: Carousel, k: nat)
    requires Valid(c)
    ensures Valid(StopGalleriesExcept(c, k))
  {
  }

  /** The slides with `is-active` toggled by the test `i === idx`. */
  function MarkActive(slides: seq<Slide>, idx: int): (r: seq<Slide>)
    ensures |r| == |slides|
    ensures forall i :: 0 <= i < |slides| ==> r[i] == slides[i].(active := i == idx)
  {
    seq(|slides|, i requires 0 <= i < |slides| => slides[i].(active := i == idx))
  }

  /** `activateHotel`: the requested index is clamped to the slides; asking
      for the current slide does nothing. Otherwise exactly the chosen slide
      and dot carry `is-active`, and afterwards no slide but the chosen one
      has a running gallery; the chosen one has one exactly when it can cycle. */
  function ActivateHotel(c: Carousel, index: int): (r: Carousel)
    requires Valid(c)
    ensures Clamp(index, |c.slides|) == c.current ==> r == c
    ensures var idx := Clamp(index, |c.slides|);
            idx != c.current ==>
              && r.current == idx
              && |r.slides| == |c.slides|
              && (forall i :: 0 <= i < |c.slides| ==> (r.slides[i].active <==> i == idx))
              && (forall i :: 0 <= i < |c.slides| ==> r.slides[i].images == c.slides[i].images)
              && |r.dots| == |c.dots|
              && (forall i :: 0 <= i < |c.dots| ==> (r.dots[i] <==> i == idx))
              && r.running.Keys <= {idx}
              && (idx in r.running <==> CanCycle(c.slides[idx]))
    ensures var idx := Clamp(index, |c.slides|);
            idx != c.current ==>
              forall i :: 0 <= i < |c.slides| && i != idx ==> r.slides[i] == c.slides[i].(active := false)
    ensures var idx := Clamp(index, |c.slides|);
            idx != c.current && idx !in c.running && !CanCycle(c.slides[idx]) ==>
              r.activations == c.activations && r.slides[idx] == c.slides[idx].(active := true)
    ensures var idx := Clamp(index, |c.slides|);
            idx != c.current && idx in c.running ==>
              r.activations == c.activations && r.running == map[idx := c.running[idx]]
    ensures var idx := Clamp(index, |c.slides|);
            var id := |c.activations|;
            var imgs := Images(c.slides[idx]);
            idx != c.current && idx !in c.running && CanCycle(c.slides[idx]) ==>
              && r.activations == c.activations + [Activation(idx, imgs, Succ(0, |imgs|), 0.0)]
              && r.running == map[idx := id]
              && (FrameReady(c.slides[idx].hero) ==> Shows(r.slides[idx].hero) == Some(imgs[0]))
              && (FrameReady(c.slides[idx].sub1) ==> Shows(r.slides[idx].sub1) == Some(imgs[1]))
              && (FrameReady(c.slides[idx].sub2) ==> Shows(r.slides[idx].sub2) == Some(imgs[Wrap(2, |imgs|)]))
  {
    var idx := Clamp(index, |c.slides|);
    if idx == c.current then c
    else
      ReselectThenStartMarks(c, idx);
      ReselectThenStartStatic(c, idx);
      ReselectThenStartFresh(c, idx);
      StartGallery(Reselect(c, idx), idx)
  }

  /** Proof step for `ActivateHotel`: the classes, the dots and the timelines
      after a change of slide. */
  lemma ReselectThenStartMarks(c: Carousel, idx: int)
    requires Valid(c) && 0 <= idx < |c.slides| && idx != c.current
    ensures var r := StartGallery(Reselect(c, idx), idx);
            && r.current == idx
            && |r.slides| == |c.slides|
            && (forall i :: 0 <= i < |c.slides| ==> (r.slides[i].active <==> i == idx))
            && (forall i :: 0 <= i < |c.slides| ==> r.slides[i].images == c.slides[i].images)
            && (forall i :: 0 <= i < |c.slides| && i != idx ==> r.slides[i] == c.slides[i].(active := false))
            && |r.dots| == |c.dots|
            && (forall i :: 0 <= i < |c.dots| ==> (r.dots[i] <==> i == idx))
            && r.running.Keys <= {idx}
            && (idx in r.running <==> CanCycle(c.slides[idx]))
  {
    var c2 := Reselect(c, idx);
    assert c2.slides[idx] == c.slides[idx].(active := true);
    assert Images(c2.slides[idx]) == Images(c.slides[idx]);
  }

  /** Proof step for `ActivateHotel`: a slide that keeps or cannot get a
      timeline makes no activation. */
  lemma ReselectThenStartStatic(c: Carousel, idx: int)
    requires Valid(c) && 0 <= idx < |c.slides| && idx != c.current
    ensures var r := StartGallery(Reselect(c, idx), idx);
            && (idx !in c.running && !CanCycle(c.slides[idx]) ==>
                  r.activations == c.activations && r.slides[idx] == c.slides[idx].(active := true))
            && (idx in c.running ==>
                  r.activations == c.activations && r.running == map[idx := c.running[idx]])
  {
    var c2 := Reselect(c, idx);
    assert c2.slides[idx] == c.slides[idx].(active := true);
    assert Images(c2.slides[idx]) == Images(c.slides[idx]);
  }

  /** Proof step for `ActivateHotel`: an idle slide that can cycle gets one
      new activation and its first tick. */
  lemma ReselectThenStartFresh(c: Carousel, idx: int)
    requires Valid(c) && 0 <= idx < |c.slides| && idx != c.current
    ensures var r := StartGallery(Reselect(c, idx), idx);
            var id := |c.activations|;
            var imgs := Images(c.slides[idx]);
            idx !in c.running && CanCycle(c.slides[idx]) ==>
              && r.activations == c.activations + [Activation(idx, imgs, Succ(0, |imgs|), 0.0)]
              && r.running == map[idx := id]
              && (FrameReady(c.slides[idx].hero) ==> Shows(r.slides[idx].hero) == Some(imgs[0]))
              && (FrameReady(c.slides[idx].sub1) ==> Shows(r.slides[idx].sub1) == Some(imgs[1]))
              && (FrameReady(c.slides[idx].sub2) ==> Shows(r.slides[idx].sub2) == Some(imgs[Wrap(2, |imgs|)]))
  {
    var c2 := Reselect(c, idx);
    assert c2.slides[idx] == c.slides[idx].(active := true);
    assert Images(c2.slides[idx]) == Images(c.slides[idx]);
  }

  /** The part of `activateHotel` before the gallery start: the classes are
      toggled, the index recorded, and every other slide's timeline stopped. */
  function Reselect(c: Carousel, idx: int): (r: Carousel)
    requires Valid(c) && 0 <= idx < |c.slides|
    ensures Valid(r)
    ensures r.current == idx && |r.slides| == |c.slides|
    ensures forall i :: 0 <= i < |c.slides| ==> r.slides[i] == c.slides[i].(active := i == idx)
    ensures r.dots == ActiveFlags(|c.dots|, idx)
    ensures r.activations == c.activations
    ensures r.running == if idx in c.running then map[idx := c.running[idx]] else map[]
  {
    var c1 := Carousel(MarkActive(c.slides, idx), ActiveFlags(|c.dots|, idx), idx, c.running, c.activations);
    MarkActiveValid(c, idx);
    StopGalleriesExceptValid(c1, idx);
    StopGalleriesExcept(c1, idx)
  }

  lemma MarkActiveValid(c: Carousel, idx: int)
    requires Valid(c) && 0 <= idx < |c.slides|
    ensures Valid(Carousel(MarkActive(c.slides, idx), ActiveFlags(|c.dots|, idx), idx, c.running, c.activations))
  {
    var c1 := Carousel(MarkActive(c.slides, idx), ActiveFlags(|c.dots|, idx), idx, c.running, c.activations);
    forall id | 0 <= id < |c.activations|
      ensures ActivationOk(c.activations[id], c1.slides)
    {
      assert ActivationOk(c.activations[id], c.slides);
    }
    forall k | 0 <= k < |c.slides|
      ensures ThumbsOk(c1.slides[k], k, c1.activations)
    {
      assert ThumbsOk(c.slides[k], k, c.activations);
    }
  }

  predicate IsBuilt(t: Option<Thumbs>) {
    t.Some? && t.value.Built?
  }

  /** A click on thumbnail `i` of slide `k` at time `now`. The handler uses
      the variables of the activation that built the strip: the hero frame
      moves to image `i`, only thumb `i` is highlighted, and that activation's
      `step` becomes `i` and its `lastManualAt` becomes `now`. With no such
      button nothing happens. */
  function ThumbClick(c: Carousel, k: nat, i: nat, now: real): (r: Carousel)
    requires Valid(c)
    ensures !(k < |c.slides| && IsBuilt(c.slides[k].thumbs) && i < |c.slides[k].thumbs.value.active|) ==> r == c
    ensures k < |c.slides| && IsBuilt(c.slides[k].thumbs) && i < |c.slides[k].thumbs.value.active| ==>
              var t := c.slides[k].thumbs.value;
              var a := c.activations[t.owner];
              && i < |a.images|
              && r.running == c.running && r.dots == c.dots && r.current == c.current
              && |r.activations| == |c.activations|
              && r.activations[t.owner] == a.(step := i, lastManualAt := now)
              && (forall j :: 0 <= j < |c.activations| && j != t.owner ==> r.activations[j] == c.activations[j])
              && |r.slides| == |c.slides|
              && (forall j :: 0 <= j < |c.slides| && j != k ==> r.slides[j] == c.slides[j])
              && r.slides[k].thumbs == Some(Built(t.owner, ActiveFlags(|t.active|, i)))
              && (FrameReady(c.slides[k].hero) ==> Shows(r.slides[k].hero) == Some(a.images[i]))
              && r.slides[k] == c.slides[k].(hero := TransitionIfPresent(c.slides[k].hero, a.images[i]),
                                             thumbs := Some(Built(t.owner, ActiveFlags(|t.active|, i))))
  {
    if !(k < |c.slides| && IsBuilt(c.slides[k].thumbs) && i < |c.slides[k].thumbs.value.active|) then c
    else
      var s := c.slides[k];
      var t := s.thumbs.value;
      assert ThumbsOk(s, k, c.activations);
      var a := c.activations[t.owner];
      assert ActivationOk(a, c.slides);
      var s' := s.(hero := TransitionIfPresent(s.hero, a.images[Wrap(i, |a.images|)]),
                   thumbs := Some(Built(t.owner, ActiveFlags(|t.active|, i))));
      c.(slides := c.slides[k := s'], activations := c.activations[t.owner := a.(step := i, lastManualAt := now)])
  }

  /** The scroll handler: the slide for progress `p` is activated. A new
      slide becomes the only active slide and dot, the other slides only lose
      `is-active`, and no other slide keeps a timeline. */
  function OnScroll(c: Carousel, p: real): (r: Carousel)
    requires Valid(c)
    ensures Valid(r)
    ensures 0.0 <= p <= 1.0 && ProgressToIndex(p, |c.slides|) == c.current ==> r == c
    ensures var idx := ProgressToIndex(p, |c.slides|);
            0.0 <= p <= 1.0 && idx != c.current ==>
              && r.current == idx
              && |r.slides| == |c.slides| && |r.dots| == |c.dots|
              && (forall i :: 0 <= i < |c.slides| ==> (r.slides[i].active <==> i == idx))
              && (forall i :: 0 <= i < |c.slides| && i != idx ==> r.slides[i] == c.slides[i].(active := false))
              && (forall i :: 0 <= i < |c.dots| ==> (r.dots[i] <==> i == idx))
              && r.running.Keys <= {idx}
              && (idx in r.running <==> CanCycle(c.slides[idx]))
  {
    ActivateHotelValid(c, ProgressToIndex(p, |c.slides|));
    ActivateHotel(c, ProgressToIndex(p, |c.slides|))
  }

  /** Scrolling into the band `[k / n, (k + 1) / n)` of the section makes
      slide `k` the current slide. */
  lemma OnScrollSelectsBand(c: Carousel, p: real, k: int)
    requires Valid(c) && 0.0 <= p < 1.0 && 0 <= k < |c.slides|
    requires k as real <= p * |c.slides| as real < (k + 1) as real
    ensures OnScroll(c, p).current == k
  {
    ProgressToIndexInterval(p, |c.slides|, k);
  }

  /** A freshly loaded page: no strip is built yet. */
  predicate Fresh(slides: seq<Slide>) {
    forall k :: 0 <= k < |slides| ==> !IsBuilt(slides[k].thumbs)
  }

  /** Page load: with at least one slide the carousel starts at index -1 with
      no timelines and activates slide 0. */
  function Init(slides: seq<Slide>, dots: seq<bool>): (r: Carousel)
    requires |slides| >= 1 && Fresh(slides)
    ensures r.current == 0 && |r.slides| == |slides|
    ensures forall i :: 0 <= i < |slides| ==> (r.slides[i].active <==> i == 0)
    ensures r.running.Keys <= {0}
    ensures 0 in r.running <==> CanCycle(slides[0])
  {
    var c0 := Carousel(slides, dots, -1, map[], []);
    assert Valid(c0);
    ActivateHotel(c0, 0)
  }

  // ---- The carousel stays in its reachable states ----

  lemma AdvanceValid(c: Carousel, id: nat)
    requires Valid(c) && id < |c.activations|
    ensures ActivationOk(c.activations[id], c.slides)
    ensures Valid(Advance(c, id))
  {
    var a := c.activations[id];
    assert ActivationOk(a, c.slides);
    var r := Advance(c, id);
    var k := a.slide;
    assert ThumbsAlike(c.slides[k].thumbs, r.slides[k].thumbs);
    SlideUpdateKeepsActivationsOk(c, r, k, id);
    SlideUpdateKeepsThumbsOk(c, r, k);
  }

  lemma TickValid(c: Carousel, k: nat, now: real)
    requires Valid(c)
    ensures Valid(Tick(c, k, now))
  {
    if k in c.running {
      AdvanceValid(c, c.running[k]);
    }
  }

  lemma StartGalleryValid(c: Carousel, k: nat)
    requires Valid(c) && k < |c.slides|
    ensures Valid(StartGallery(c, k))
  {
    if k !in c.running && CanCycle(c.slides[k]) {
      var c1 := PrepareStart(c, k);
      var id := |c.activations|;
      AdvanceValid(c1, id);
      var c2 := Advance(c1, id);
      assert c2.activations[id].slide == k;
      RecordRunningValid(c2, k, id);
    }
  }

  /** Recording activation `id` as slide `k`'s timeline keeps the state
      reachable when that activation was made for `k`. */
  lemma RecordRunningValid(c: Carousel, k: nat, id: nat)
    requires Valid(c) && k < |c.slides| && id < |c.activations| && c.activations[id].slide == k
    ensures Valid(c.(running := c.running[k := id]))
  {
  }

  lemma ActivateHotelValid(c: Carousel, index: int)
    requires Valid(c)
    ensures Valid(ActivateHotel(c, index))
  {
    var idx := Clamp(index, |c.slides|);
    if idx != c.current {
      StartGalleryValid(Reselect(c, idx), idx);
    }
  }

  lemma ThumbClickValid(c: Carousel, k: nat, i: nat, now: real)
    requires Valid(c)
    ensures Valid(ThumbClick(c, k, i, now))
  {
    if k < |c.slides| && IsBuilt(c.slides[k].thumbs) && i < |c.slides[k].thumbs.value.active| {
      var r := ThumbClick(c, k, i, now);
      var t := c.slides[k].thumbs.value;
      assert ThumbsOk(c.slides[k], k, c.activations);
      SlideUpdateKeepsActivationsOk(c, r, k, t.owner);
      SlideUpdateKeepsThumbsOk(c, r, k);
    }
  }

  /** An update of slide `k` that keeps its images and frames, leaves it
      with a strip that is not unbuilt, and changes only the step of one of
      its activations keeps every activation well formed. */
  lemma SlideUpdateKeepsActivationsOk(c: Carousel, r: Carousel, k: nat, o: nat)
    requires Valid(c) && k < |c.slides| && o < |c.activations| && c.activations[o].slide == k
    requires |r.slides| == |c.slides| && |r.activations| == |c.activations|
    requires forall j :: 0 <= j < |c.slides| && j != k ==> r.slides[j] == c.slides[j]
    requires r.slides[k].images == c.slides[k].images && HasFrames(r.slides[k])
    requires r.slides[k].thumbs != Some(Unbuilt)
    requires forall j :: 0 <= j < |c.activations| && j != o ==> r.activations[j] == c.activations[j]
    requires r.activations[o].slide == k && r.activations[o].images == c.activations[o].images
    requires r.activations[o].step < |r.activations[o].images|
    ensures ActivationsOk(r)
  {
    forall j | 0 <= j < |r.activations|
      ensures ActivationOk(r.activations[j], r.slides)
    {
      assert ActivationOk(c.activations[j], c.slides);
      var sj := r.activations[j].slide;
      if sj != k {
        assert r.slides[sj] == c.slides[sj];
      }
    }
  }

  /** Two strips with the same owner and button count, or the same strip. */
  predicate ThumbsAlike(t: Option<Thumbs>, u: Option<Thumbs>) {
    t == u || (IsBuilt(t) && IsBuilt(u) && t.value.owner == u.value.owner
               && |t.value.active| == |u.value.active|)
  }

  /** An update of slide `k` that keeps its strip's owner and size, and keeps
      the slide and images of every activation, keeps every strip well formed. */
  lemma SlideUpdateKeepsThumbsOk(c: Carousel, r: Carousel, k: nat)
    requires Valid(c) && k < |c.slides|
    requires |r.slides| == |c.slides| && |r.activations| == |c.activations|
    requires forall j :: 0 <= j < |c.slides| && j != k ==> r.slides[j] == c.slides[j]
    requires forall j :: 0 <= j < |c.activations| ==>
               r.activations[j].slide == c.activations[j].slide && r.activations[j].images == c.activations[j].images
    requires ThumbsAlike(c.slides[k].thumbs, r.slides[k].thumbs)
    ensures AllThumbsOk(r)
  {
    forall j | 0 <= j < |r.slides|
      ensures ThumbsOk(r.slides[j], j, r.activations)
    {
      assert ThumbsOk(c.slides[j], j, c.activations);
    }
  }

  lemma InitValid(slides: seq<Slide>, dots: seq<bool>)
    requires |slides| >= 1 && Fresh(slides)
    ensures Valid(Init(slides, dots))
  {
    ActivateHotelValid(Carousel(slides, dots, -1, map[], []), 0);
  }

  // ---- Properties of the gallery cycle ----

  /** With three or more images the three frames show three different
      positions of the list. */
  lemma TickOffsetsDistinct(step: nat, n: nat)
    requires 3 <= n && step < n
    ensures Wrap(step, n) == step
    ensures step != Wrap(step + 1, n) && step != Wrap(step + 2, n) && Wrap(step + 1, n) != Wrap(step + 2, n)
  {
    if step + 2 < n {
      ModUnique(step + 1, n, 0, step + 1);
      ModUnique(step + 2, n, 0, step + 2);
    } else if step + 2 == n {
      ModUnique(step + 1, n, 0, step + 1);
      ModUnique(step + 2, n, 1, 0);
    } else {
      ModUnique(step + 1, n, 1, 0);
      ModUnique(step + 2, n, 1, 1);
    }
  }

  /** Within five seconds of a click on a thumb of the running activation the
      timeline's repeats change nothing. */
  lemma ClickPausesCycle(c: Carousel, k: nat, i: nat, now: real, later: real)
    requires Valid(c) && k < |c.slides| && IsBuilt(c.slides[k].thumbs)
    requires i < |c.slides[k].thumbs.value.active|
    requires k in c.running && c.running[k] == c.slides[k].thumbs.value.owner
    requires now != 0.0 && later - now < CooldownMs
    ensures Valid(ThumbClick(c, k, i, now))
    ensures Tick(ThumbClick(c, k, i, now), k, later) == ThumbClick(c, k, i, now)
  {
    ThumbClickValid(c, k, i, now);
  }

  /** Once the pause is over the cycle continues from the clicked image: the
      hero shows image `i` again and the step moves past it. */
  lemma ClickThenResume(c: Carousel, k: nat, i: nat, now: real, later: real)
    requires Valid(c) && k < |c.slides| && IsBuilt(c.slides[k].thumbs)
    requires i < |c.slides[k].thumbs.value.active|
    requires k in c.running && c.running[k] == c.slides[k].thumbs.value.owner
    requires later - now >= CooldownMs
    requires FrameReady(c.slides[k].hero)
    ensures Valid(ThumbClick(c, k, i, now))
    ensures var c1 := ThumbClick(c, k, i, now);
            var a := c.activations[c.running[k]];
            var r := Tick(c1, k, later);
            && Shows(r.slides[k].hero) == Some(a.images[i])
            && r.activations[c.running[k]].step == Succ(i, |a.images|)
  {
    var c1 := ThumbClick(c, k, i, now);
    ThumbClickValid(c, k, i, now);
    assert FrameReady(c1.slides[k].hero);
  }

  /** After a slide's gallery has been stopped and started again, its
      timeline runs on a new activation, not the one whose variables the
      thumbnail handlers update. */
  lemma RestartGetsNewActivation(c: Carousel, k: nat)
    requires Valid(c) && k < |c.slides| && k !in c.running && CanCycle(c.slides[k])
    requires IsBuilt(c.slides[k].thumbs)
    ensures var r := StartGallery(c, k);
            k in r.running && r.running[k] != r.slides[k].thumbs.value.owner
  {
    assert ThumbsOk(c.slides[k], k, c.activations);
  }

  /** A click on a restarted slide leaves the running activation's variables
      alone: it neither pauses the cycle nor moves its step. */
  lemma ClickMissesRestartedCycle(c: Carousel, k: nat, i: nat, now: real)
    requires Valid(c) && k < |c.slides| && IsBuilt(c.slides[k].thumbs)
    requires k in c.running && c.running[k] != c.slides[k].thumbs.value.owner
    ensures ThumbClick(c, k, i, now).running == c.running
    ensures ThumbClick(c, k, i, now).activations[c.running[k]] == c.activations[c.running[k]]
  {
  }

  /** Activating the slide the carousel already shows changes nothing, so a
      second activation of the same slide never restarts its gallery. */
  lemma ActivateIdempotent(c: Carousel, index: int)
    requires Valid(c)
    ensures Valid(ActivateHotel(c, index))
    ensures ActivateHotel(ActivateHotel(c, index), index) == ActivateHotel(c, index)
  {
    ActivateHotelValid(c, index);
  }
}

=== FILE: image_list.dfy ===
/**
 Parsing of the comma-separated image lists carried by the `data-images`
 attribute of option cards and hotel slides: split at every comma, trim each
 piece, drop the pieces that are empty after trimming.
 */
module ImageList {
  import opened Wrappers

  /** The code points JavaScript's `String.prototype.trim` removes
      (ECMAScript WhiteSpace and LineTerminator). */
  predicate IsSpace(c: char) {
    || c == '\t' || c == '\n' || c == '\U{B}' || c == '\U{C}' || c == '\r'
    || c == ' ' || c == '\U{A0}' || c == '\U{1680}'
    || ('\U{2000}' <= c <= '\U{200A}')
    || c == '\U{2028}' || c == '\U{2029}' || c == '\U{202F}' || c == '\U{205F}'
    || c == '\U{3000}' || c == '\U{FEFF}'
  }

  /** Neither end of `s` is a space. */
  predicate Trimmed(s: string) {
    s == [] || (!IsSpace(s[0]) && !IsSpace(s[|s| - 1]))
  }

  /** Every character of `s[lo..hi]` is a space. */
  predicate SpacesBetween(s: string, lo: int, hi: int)
    requires 0 <= lo <= hi <= |s|
  {
    forall k :: lo <= k < hi ==> IsSpace(s[k])
  }

  /** How many spaces `s` starts with. */
  function Lead(s: string): (n: nat)
    ensures n <= |s| && SpacesBetween(s, 0, n)
    ensures n < |s| ==> !IsSpace(s[n])
  {
    if |s| > 0 && IsSpace(s[0]) then
      var m := Lead(s[1..]);
      assert forall k :: 1 <= k < 1 + m ==> s[k] == s[1..][k - 1];
      1 + m
    else 0
  }

  /** How many spaces `s` ends with. */
  function Trail(s: string): (n: nat)
    ensures n <= |s| && SpacesBetween(s, |s| - n, |s|)
    ensures n < |s| ==> !IsSpace(s[|s| - 1 - n])
  {
    if |s| > 0 && IsSpace(s[|s| - 1]) then
      var m := Trail(s[..|s| - 1]);
      assert forall k :: |s| - 1 - m <= k < |s| - 1 ==> s[k] == s[..|s| - 1][k];
      1 + m
    else 0
  }

  /** `s` without spaces at either end: the result is a slice of `s` that
      starts and ends with a non-space, and everything dropped around it is
      a space. */
  function Trim(s: string): (r: string)
    ensures Trimmed(r)
    ensures Lead(s) + |r| <= |s| && r == s[Lead(s)..Lead(s) + |r|]
    ensures SpacesBetween(s, 0, Lead(s))
    ensures SpacesBetween(s, Lead(s) + |r|, |s|)
  {
    var lead := Lead(s);
    var trail := Trail(s);
    if lead == |s| then []
    else
      s[lead..|s| - trail]
  }

  /** A character absent from `s` is absent from every slice of it. */
  lemma NotInSlice(c: char, s: string, i: nat, j: nat)
    requires i <= j <= |s| && c !in s
    ensures c !in s[i..j]
  {
  }

  /** The pieces of `s` between commas, as JavaScript's `split(',')` gives them:
      there is always at least one piece, and no piece contains a comma. */
  function Split(s: string): (r: seq<string>)
    ensures |r| >= 1
    ensures forall i :: 0 <= i < |r| ==> ',' !in r[i]
  {
    if s == [] then [[]]
    else
      var rest := Split(s[1..]);
      if s[0] == ',' then [[]] + rest
      else [[s[0]] + rest[0]] + rest[1..]
  }

  /** The pieces written back with a comma between each two. */
  function Join(pieces: seq<string>): string
    requires |pieces| >= 1
  {
    if |pieces| == 1 then pieces[0] else pieces[0] + [','] + Join(pieces[1..])
  }

  /** Trim every piece and keep the non-empty ones, in order. */
  function Clean(pieces: seq<string>): (r: seq<string>)
    ensures |r| <= |pieces|
    ensures forall i :: 0 <= i < |r| ==> r[i] != [] && Trimmed(r[i])
  {
    if pieces == [] then []
    else
      var t := Trim(pieces[0]);
      (if t == [] then [] else [t]) + Clean(pieces[1..])
  }

  /** The image list of an attribute value that may be absent: no entry is
      empty, contains a comma or has a space at either end, and there are no
      more entries than comma-separated pieces. */
  function ParseImagesCsv(raw: Option<string>): (r: seq<string>)
    ensures raw == None || raw == Some([]) ==> r == []
    ensures |r| <= |Split(raw.GetOr([]))|
    ensures forall i :: 0 <= i < |r| ==> r[i] != [] && ',' !in r[i] && Trimmed(r[i])
  {
    var pieces := Split(raw.GetOr([]));
    var r := Clean(pieces);
    CleanIsCommaFree(pieces);
    r
  }

  lemma {:induction false} CleanIsCommaFree(pieces: seq<string>)
    requires forall i :: 0 <= i < |pieces| ==> ',' !in pieces[i]
    ensures forall i :: 0 <= i < |Clean(pieces)| ==> ',' !in Clean(pieces)[i]
  {
    if pieces != [] {
      CleanIsCommaFree(pieces[1..]);
      NotInSlice(',', pieces[0], Lead(pieces[0]), Lead(pieces[0]) + |Trim(pieces[0])|);
    }
  }

  /** Splitting and joining again gives back the attribute text exactly. */
  lemma {:induction false} JoinSplit(s: string)
    ensures Join(Split(s)) == s
  {
    if s != [] {
      JoinSplit(s[1..]);
      var rest := Split(s[1..]);
      if s[0] == ',' {
        assert s == [','] + s[1..];
      } else if |rest| == 1 {
        assert s == [s[0]] + s[1..];
      } else {
        assert Join(rest) == rest[0] + [','] + Join(rest[1..]);
        assert s == [s[0]] + s[1..];
      }
    }
  }

  lemma {:induction false} SplitCommaFree(p: string, rest: string)
    requires ',' !in p
    ensures Split(p + [','] + rest) == [p] + Split(rest)
    ensures Split(p) == [p]
  {
    if p != [] {
      SplitCommaFree(p[1..], rest);
      assert (p + [','] + rest)[1..] == p[1..] + [','] + rest;
      assert p[1..] != [] || p == [p[0]];
      assert [p[0]] + p[1..] == p;
    }
  }

  /** Joining comma-free pieces and splitting again gives back the pieces. */
  lemma {:induction false} SplitJoin(pieces: seq<string>)
    requires |pieces| >= 1
    requires forall i :: 0 <= i < |pieces| ==> ',' !in pieces[i]
    ensures Split(Join(pieces)) == pieces
  {
    SplitCommaFree(pieces[0], []);
    if |pieces| > 1 {
      SplitJoin(pieces[1..]);
      SplitCommaFree(pieces[0], Join(pieces[1..]));
      assert [pieces[0]] + pieces[1..] == pieces;
    }
  }

  lemma {:induction false} CleanOfClean(pieces: seq<string>)
    requires forall i :: 0 <= i < |pieces| ==> pieces[i] != [] && Trimmed(pieces[i])
    ensures Clean(pieces) == pieces
  {
    if pieces != [] {
      TrimOfTrimmed(pieces[0]);
      CleanOfClean(pieces[1..]);
      assert [pieces[0]] + pieces[1..] == pieces;
    }
  }

  /** Trimming a string that has no space at either end leaves it unchanged. */
  lemma TrimOfTrimmed(s: string)
    requires Trimmed(s)
    ensures Trim(s) == s
  {
  }

  /** Trimming is idempotent. */
  lemma TrimIdempotent(s: string)
    ensures Trim(Trim(s)) == Trim(s)
  {
    TrimOfTrimmed(Trim(s));
  }

  /** An image list written as an attribute (comma-separated, with no padding)
      parses back to the same list, entry for entry and in order. */
  lemma ParseJoinRoundTrip(images: seq<string>)
    requires |images| >= 1
    requires forall i :: 0 <= i < |images| ==> images[i] != [] && ',' !in images[i] && Trimmed(images[i])
    ensures ParseImagesCsv(Some(Join(images))) == images
  {
    SplitJoin(images);
    CleanOfClean(images);
  }

  /** Some comma-separated piece trims to `x`. */
  ghost predicate Yields(pieces: seq<string>, x: string) {
    exists i :: 0 <= i < |pieces| && Trim(pieces[i]) == x
  }

  lemma YieldsCons(pieces: seq<string>, x: string)
    requires pieces != []
    ensures Yields(pieces, x) <==> Trim(pieces[0]) == x || Yields(pieces[1..], x)
  {
    if Yields(pieces, x) && Trim(pieces[0]) != x {
      var i :| 0 <= i < |pieces| && Trim(pieces[i]) == x;
      assert Trim(pieces[1..][i - 1]) == x;
    }
    if Yields(pieces[1..], x) {
      var i :| 0 <= i < |pieces[1..]| && Trim(pieces[1..][i]) == x;
      assert Trim(pieces[i + 1]) == x;
    }
  }

  /** A string occurs in the cleaned list exactly when it is non-empty and
      some piece trims to it. */
  lemma {:induction false} CleanContents(pieces: seq<string>, x: string)
    ensures x in Clean(pieces) <==> x != [] && Yields(pieces, x)
  {
    if pieces != [] {
      CleanContents(pieces[1..], x);
      YieldsCons(pieces, x);
      var t := Trim(pieces[0]);
      assert Clean(pieces) == (if t == [] then [] else [t]) + Clean(pieces[1..]);
    }
  }

  /** A string occurs in the parsed image list exactly when it is a
      non-empty, trimmed comma-separated piece of the attribute. */
  lemma ParseContents(raw: Option<string>, x: string)
    ensures x in ParseImagesCsv(raw) <==> x != [] && Yields(Split(raw.GetOr([])), x)
  {
    CleanContents(Split(raw.GetOr([])), x);
  }

  /** Cleaning distributes over concatenation: the pieces of `xs` contribute
      their entries before those of `ys`, each kept as often as it occurs. */
  lemma {:induction false} CleanAppend(xs: seq<string>, ys: seq<string>)
    ensures Clean(xs + ys) == Clean(xs) + Clean(ys)
  {
    if xs == [] {
      assert xs + ys == ys;
    } else {
      CleanAppend(xs[1..], ys);
      var h := if Trim(xs[0]) == [] then [] else [Trim(xs[0])];
      var zs := xs + ys;
      TailAppend(xs, ys);
      assert Clean(zs) == h + Clean(xs[1..] + ys);
      assert Clean(xs) == h + Clean(xs[1..]);
      AppendAssoc(h, Clean(xs[1..]), Clean(ys));
    }
  }

  lemma TailAppend<T>(xs: seq<T>, ys: seq<T>)
    requires xs != []
    ensures (xs + ys)[0] == xs[0] && (xs + ys)[1..] == xs[1..] + ys
  {
  }

  lemma AppendAssoc<T>(a: seq<T>, b: seq<T>, c: seq<T>)
    ensures a + (b + c) == (a + b) + c
  {
  }

  /** An attribute without a comma is one piece: it yields its trimmed text,
      or nothing when that is empty. */
  lemma ParseSingle(p: string)
    requires ',' !in p
    ensures ParseImagesCsv(Some(p)) == (if Trim(p) == [] then [] else [Trim(p)])
  {
    SplitCommaFree(p, []);
    assert Clean([p]) == (if Trim(p) == [] then [] else [Trim(p)]) + Clean([]);
  }

  /** The entries of `p,q` are those of `p` followed by those of `q`, in
      order and with repeats kept; with `ParseSingle` this pins the parse of
      every attribute down to the trimmed non-empty pieces in order. */
  lemma ParseCons(p: string, q: string)
    requires ',' !in p
    ensures ParseImagesCsv(Some(p + [','] + q)) == ParseImagesCsv(Some(p)) + ParseImagesCsv(Some(q))
  {
    SplitCommaFree(p, q);
    CleanAppend([p], Split(q));
  }

  /** The shipped attributes put a space after each comma; a name written
      twice is kept twice, so it still counts towards the two-image guard. */
  lemma ParsePaddedRepeat(name: string)
    requires name != [] && ',' !in name && Trimmed(name)
    ensures ParseImagesCsv(Some(name + [',', ' '] + name)) == [name, name]
  {
    Regroup(name, ',', ' ');
    ParseCons(name, [' '] + name);
    ParseSingle(name);
    TrimOfTrimmed(name);
    ParseSingle([' '] + name);
    TrimLeadingSpace(name);
    var p, q := ParseImagesCsv(Some(name)), ParseImagesCsv(Some([' '] + name));
    assert p == [name] && q == [name];
  }

  lemma Regroup<T>(a: seq<T>, x: T, y: T)
    ensures a + [x, y] + a == a + [x] + ([y] + a)
  {
  }

  lemma TrimLeadingSpace(name: string)
    requires name != [] && Trimmed(name)
    ensures Trim([' '] + name) == name
  {
    var s := [' '] + name;
    assert s[1..] == name;
    assert Lead(s) == 1;
    assert Trail(s) == 0;
  }
}

=== FILE: options_gallery.dfy ===
/**
 The image galleries of the option cards. While the options section is in
 view every card whose frame exists and whose `data-images` list has at least
 two entries cycles through its list, one picture per repeat; the list of
 running timelines doubles as the "already started" guard.
 */
module OptionsGallery {
  import opened Wrappers
  import opened ImageList
  import opened Frames
  import opened Selection

  /** An option card: its `data-images` attribute and its gallery frame. */
  datatype Card = Card(images: Option<string>, frame: Option<Frame>)

  /** A running gallery timeline: the index of its card, the parsed image
      list and the `step` counter its tick closes over. */
  datatype Gallery = Gallery(card: nat, images: seq<string>, step: nat)

  datatype Options = Options(cards: seq<Card>, running: seq<Gallery>)

  function Images(c: Card): seq<string> {
    ParseImagesCsv(c.images)
  }

  /** The start guard: a card gets a gallery only when it has a frame and
      at least two images. */
  predicate Cycles(c: Card) {
    c.frame.Some? && |Images(c)| >= 2
  }

  function CardsOf(gs: seq<Gallery>): set<nat> {
    set g | g in gs :: g.card
  }

  /** Timeline `gal` was started for one of `cards`: that card cycles, the
      timeline carries its image list, and its step indexes that list. */
  predicate RunsFor(gal: Gallery, cards: seq<Card>) {
    && gal.card < |cards|
    && Cycles(cards[gal.card])
    && gal.images == Images(cards[gal.card])
    && gal.step < |gal.images|
  }

  /** Timelines are kept in the order of their cards. */
  predicate Ordered(gs: seq<Gallery>) {
    forall g :: 0 < g < |gs| ==> gs[g - 1].card < gs[g].card
  }

  /** The states the galleries can be in. */
  predicate Valid(o: Options) {
    && (forall g :: 0 <= g < |o.running| ==> RunsFor(o.running[g], o.cards))
    && Ordered(o.running)
  }

  /** One card at start: the frame gets its default `show`, and the first tick
      shows image `idx % n`. Non-cycling cards are left alone. */
  function StartCard(c: Card, idx: nat): (r: Card)
    ensures r.images == c.images && (r.frame.Some? <==> c.frame.Some?)
    ensures Cycles(r) <==> Cycles(c)
    ensures !Cycles(c) ==> r == c
    ensures Cycles(c) && HasSlots(c.frame.value) ==>
              VisibleSrc(r.frame.value) == Some(Images(c)[Wrap(idx, |Images(c)|)])
  {
    if !Cycles(c) then c
    else
      var imgs := Images(c);
      Card(c.images, Some(TransitionFrameTo(WithDefaultShow(c.frame.value), imgs[Wrap(idx, |imgs|)])))
  }

  /** The step a timeline holds right after its first tick. */
  predicate AfterFirstTick(gal: Gallery) {
    |gal.images| > 0 && gal.step == Succ(Wrap(gal.card, |gal.images|), |gal.images|)
  }

  /** The timelines started for `cards[from..]`, in card order, each having
      shown its first picture. */
  function Launch(cards: seq<Card>, from: nat): (gs: seq<Gallery>)
    requires from <= |cards|
    ensures forall g :: 0 <= g < |gs| ==> from <= gs[g].card && RunsFor(gs[g], cards) && AfterFirstTick(gs[g])
    ensures Ordered(gs)
    decreases |cards| - from
  {
    if from == |cards| then []
    else
      var rest := Launch(cards, from + 1);
      var c := cards[from];
      if Cycles(c) then
        var n := |Images(c)|;
        [Gallery(from, Images(c), Succ(Wrap(from, n), n))] + rest
      else rest
  }

  /** Exactly the cycling cards get a timeline. */
  lemma {:induction false} LaunchCovers(cards: seq<Card>, from: nat, i: nat)
    requires from <= i < |cards|
    ensures i in CardsOf(Launch(cards, from)) <==> Cycles(cards[i])
    decreases |cards| - from
  {
    var gs := Launch(cards, from);
    var rest := Launch(cards, from + 1);
    if i == from {
      if !Cycles(cards[i]) {
        assert gs == rest;
      }
      else {
        assert gs[0].card == i;
      }
    } else {
      LaunchCovers(cards, from + 1, i);
      assert CardsOf(gs) == CardsOf(rest) || CardsOf(gs) == {from} + CardsOf(rest);
    }
  }

  /** No card ever has two timelines. */
  lemma {:induction false} OrderedDistinct(gs: seq<Gallery>, g: nat, h: nat)
    requires Ordered(gs) && g < h < |gs|
    ensures gs[g].card < gs[h].card
    decreases h - g
  {
    if g + 1 < h {
      OrderedDistinct(gs, g + 1, h);
    }
  }

  /** `startOptionsGalleries`: a no-op while any timeline runs; otherwise
      every cycling card shows its first picture and gets a timeline. */
  function Start(o: Options): (r: Options)
    ensures |o.running| > 0 ==> r == o
    ensures |o.running| == 0 ==>
              && |r.cards| == |o.cards|
              && r.running == Launch(o.cards, 0)
              && (forall i :: 0 <= i < |o.cards| ==> r.cards[i] == StartCard(o.cards[i], i))
  {
    if |o.running| > 0 then o
    else Options(seq(|o.cards|, i requires 0 <= i < |o.cards| => StartCard(o.cards[i], i)), Launch(o.cards, 0))
  }

  /** `stopOptionsGalleries`: every timeline is killed and the list emptied;
      the frames keep the picture they show. */
  function Stop(o: Options): (r: Options)
    ensures r.running == [] && r.cards == o.cards
  {
    Options(o.cards, [])
  }

  /** One repeat of timeline `g`: its card's frame moves to the image at
      `step`, and `step` advances by one modulo the list length. */
  function Tick(o: Options, g: nat): (r: Options)
    requires Valid(o) && g < |o.running|
    ensures |r.running| == |o.running| && |r.cards| == |o.cards|
    ensures r.cards[o.running[g].card].frame.Some?
    ensures var gal := o.running[g];
            && r.running[g] == gal.(step := Succ(gal.step, |gal.images|))
            && (HasSlots(o.cards[gal.card].frame.value) ==>
                  VisibleSrc(r.cards[gal.card].frame.value) == Some(gal.images[gal.step]))
            && r.cards[gal.card] == o.cards[gal.card].(frame := Some(TransitionFrameTo(o.cards[gal.card].frame.value, gal.images[gal.step])))
    ensures forall h :: 0 <= h < |o.running| && h != g ==> r.running[h] == o.running[h]
    ensures forall i :: 0 <= i < |o.cards| && i != o.running[g].card ==> r.cards[i] == o.cards[i]
  {
    var gal := o.running[g];
    var n := |gal.images|;
    var src := gal.images[Wrap(gal.step, n)];
    var c := o.cards[gal.card];
    var c' := c.(frame := Some(TransitionFrameTo(c.frame.value, src)));
    Options(o.cards[gal.card := c'], o.running[g := gal.(step := Succ(gal.step, n))])
  }

  /** A fresh page has no timelines. */
  lemma InitialValid(cards: seq<Card>)
    ensures Valid(Options(cards, []))
  {
  }

  /** The cards that get a timeline on start are exactly the cycling ones. */
  lemma StartCovers(o: Options, i: nat)
    requires |o.running| == 0 && i < |o.cards|
    ensures i in CardsOf(Start(o).running) <==> Cycles(o.cards[i])
  {
    LaunchCovers(o.cards, 0, i);
  }

  lemma StartValid(o: Options)
    requires Valid(o)
    ensures Valid(Start(o))
  {
    if |o.running| == 0 {
      var r := Start(o);
      forall g | 0 <= g < |r.running|
        ensures RunsFor(r.running[g], r.cards)
      {
        var k := r.running[g].card;
        assert RunsFor(r.running[g], o.cards);
        assert r.cards[k] == StartCard(o.cards[k], k);
      }
    }
  }

  lemma StopValid(o: Options)
    ensures Valid(Stop(o))
  {
  }

  lemma TickValid(o: Options, g: nat)
    requires Valid(o) && g < |o.running|
    ensures Valid(Tick(o, g))
  {
    var r := Tick(o, g);
    var k := o.running[g].card;
    forall h | 0 <= h < |r.running|
      ensures RunsFor(r.running[h], r.cards)
    {
      assert RunsFor(o.running[h], o.cards);
      var j := r.running[h].card;
      if j != k { assert r.cards[j] == o.cards[j]; }
    }
  }

  /** Starting is idempotent: a second start finds either the timelines of
      the first one, or no card that could cycle. */
  lemma StartIdempotent(o: Options)
    ensures Start(Start(o)) == Start(o)
  {
    if |o.running| == 0 && |Start(o).running| == 0 {
      var r := Start(o);
      forall i | 0 <= i < |o.cards|
        ensures r.cards[i] == o.cards[i]
      {
        StartCovers(o, i);
      }
      assert r.cards == o.cards;
    }
  }

  /** Leaving and re-entering the section restarts the galleries afresh. */
  lemma StopThenStart(o: Options)
    ensures Start(Stop(o)).running == Launch(o.cards, 0)
  {
  }

  /** The first picture card `k` shows is image `k % n`; afterwards its
      timeline continues from the next one. */
  lemma FirstTickOffset(o: Options, g: nat)
    requires |o.running| == 0 && g < |Start(o).running|
    ensures var gal := Start(o).running[g];
            && gal.step == Succ(Wrap(gal.card, |gal.images|), |gal.images|)
            && (HasSlots(o.cards[gal.card].frame.value) ==>
                  VisibleSrc(Start(o).cards[gal.card].frame.value) == Some(gal.images[Wrap(gal.card, |gal.images|)]))
  {
    var gal := Start(o).running[g];
    assert RunsFor(gal, o.cards) && AfterFirstTick(gal);
  }

  /** The step a timeline holds after `m` more repeats. */
  function StepAfter(gal: Gallery, m: nat): (step: nat)
    requires |gal.images| > 0
    ensures step < |gal.images|
  {
    if m == 0 then Wrap(gal.step, |gal.images|) else Succ(StepAfter(gal, m - 1), |gal.images|)
  }

  /** Successive repeats of a timeline walk its image list cyclically: after
      `m` repeats the step is the starting step plus `m`, modulo the length. */
  lemma {:induction false} TicksCycle(gal: Gallery, m: nat)
    requires |gal.images| > 0
    ensures StepAfter(gal, m) == Wrap(gal.step + m, |gal.images|)
  {
    if m > 0 {
      TicksCycle(gal, m - 1);
      SuccOfWrap(gal.step + (m - 1), |gal.images|);
    }
  }

  /** Within `n` repeats a timeline of `n` images shows every one of them. */
  lemma EveryImageShown(gal: Gallery, i: nat)
    requires gal.step < |gal.images| && i < |gal.images|
    ensures exists m :: 0 <= m < |gal.images| && StepAfter(gal, m) == i
  {
    var n := |gal.images|;
    var m := if gal.step <= i then i - gal.step else i + n - gal.step;
    TicksCycle(gal, m);
    if gal.step <= i {
      assert Wrap(gal.step + m, n) == i;
    } else {
      ModUnique(gal.step + m, n, 1, i);
    }
  }

  /** `m` repeats of timeline `g`, with no other timeline firing in between.
      The step it reaches is `StepAfter`, which links the cycling lemmas
      above to the ticks themselves. */
  function Repeat(o: Options, g: nat, m: nat): (r: Options)
    requires Valid(o) && g < |o.running|
    ensures Valid(r) && |r.running| == |o.running| && |r.cards| == |o.cards|
    ensures r.running[g].card == o.running[g].card && r.running[g].images == o.running[g].images
    ensures r.running[g].step == StepAfter(o.running[g], m)
    ensures var k := o.running[g].card;
            r.cards[k].frame.Some? && (HasSlots(o.cards[k].frame.value) ==> HasSlots(r.cards[k].frame.value))
  {
    assert RunsFor(o.running[g], o.cards);
    if m == 0 then o
    else
      var p := Repeat(o, g, m - 1);
      TickValid(p, g);
      Tick(p, g)
  }

  /** After `m + 1` repeats a card with both slots shows the image at
      `StepAfter(gal, m)`: with `EveryImageShown`, every image of the list
      comes up on the card. */
  lemma RepeatShows(o: Options, g: nat, m: nat)
    requires Valid(o) && g < |o.running|
    requires HasSlots(o.cards[o.running[g].card].frame.value)
    ensures var gal := o.running[g];
            VisibleSrc(Repeat(o, g, m + 1).cards[gal.card].frame.value) == Some(gal.images[StepAfter(gal, m)])
  {
  }

  /** Every image of a running timeline appears on its card within `n`
      repeats, when the card has both slots. */
  lemma EveryImageAppears(o: Options, g: nat, i: nat)
    requires Valid(o) && g < |o.running| && i < |o.running[g].images|
    requires HasSlots(o.cards[o.running[g].card].frame.value)
    ensures var gal := o.running[g];
            exists m :: 1 <= m <= |gal.images| &&
              VisibleSrc(Repeat(o, g, m).cards[gal.card].frame.value) == Some(gal.images[i])
  {
    var gal := o.running[g];
    assert RunsFor(gal, o.cards);
    EveryImageShown(gal, i);
    var m :| 0 <= m < |gal.images| && StepAfter(gal, m) == i;
    RepeatShows(o, g, m);
    assert VisibleSrc(Repeat(o, g, m + 1).cards[gal.card].frame.value) == Some(gal.images[i]);
  }
}

=== FILE: recap_rail.dfy ===
/**
 The recap rail's minimise/maximise control. Its collapsed state is mirrored
 in the toggle button (aria-expanded, glyph, title) and persisted in a
 key/value store that may refuse every access, in which case the failure is
 swallowed.
 */
module RecapRail {
  import opened Wrappers

  const StorageKey: string := "recapRailCollapsed"

  /** The browser's key/value store; `failing` means every access throws. */
  datatype Store = Store(failing: bool, items: map<string, string>)

  /** The rail and its toggle: `present` is false when either element is
      missing from the page. */
  datatype Rail = Rail(present: bool, collapsed: bool, ariaExpanded: string, glyph: string, title: string)

  datatype Page = Page(rail: Rail, store: Store)

  /** The toggle's attributes agree with the rail's collapsed state. */
  predicate Consistent(r: Rail) {
    && r.ariaExpanded == (if r.collapsed then "false" else "true")
    && r.glyph == (if r.collapsed then "▸" else "▾")
    && r.title == (if r.collapsed then "Maximizar Recap" else "Minimizar Recap")
  }

  /** The value a read of the rail's key yields: None when the key is unset
      or the store throws. */
  function Read(s: Store): Option<string> {
    if s.failing || StorageKey !in s.items then None else Some(s.items[StorageKey])
  }

  /** `setRecapCollapsed`: with the rail present, the rail takes state
      `collapsed`, the toggle says it is expanded exactly when it is not
      collapsed, and "1" or "0" is written to the store unless it fails. A
      missing rail changes nothing, not even the store. */
  function SetCollapsed(p: Page, collapsed: bool): (r: Page)
    ensures !p.rail.present ==> r == p
    ensures p.rail.present ==>
              && r.rail.present && r.rail.collapsed == collapsed && Consistent(r.rail)
              && (r.rail.ariaExpanded == "true" <==> !collapsed)
              && r.store.failing == p.store.failing
              && (p.store.failing ==> r.store == p.store)
              && (!p.store.failing ==> Read(r.store) == Some(if collapsed then "1" else "0"))
              && (forall key :: key in p.store.items && key != StorageKey ==>
                    key in r.store.items && r.store.items[key] == p.store.items[key])
              && (!p.store.failing ==> r.store.items.Keys == p.store.items.Keys + {StorageKey})
  {
    if !p.rail.present then p
    else
      var rail := Rail(true, collapsed, if collapsed then "false" else "true",
                       if collapsed then "▸" else "▾",
                       if collapsed then "Maximizar Recap" else "Minimizar Recap");
      var store := if p.store.failing then p.store
                   else p.store.(items := p.store.items[StorageKey := if collapsed then "1" else "0"]);
      Page(rail, store)
  }

  /** Page load: the rail starts collapsed exactly when the store holds
      exactly "1" under the key; a failing store gives the expanded default. */
  function Init(rail: Rail, store: Store): (r: Page)
    ensures rail.present ==> r.rail.collapsed == (Read(store) == Some("1")) && Consistent(r.rail)
    ensures rail.present && store.failing ==> !r.rail.collapsed && r.store == store
    ensures rail.present && !store.failing ==>
              r.store.items == store.items[StorageKey := if Read(store) == Some("1") then "1" else "0"]
    ensures !rail.present ==> r == Page(rail, store)
  {
    if !rail.present then Page(rail, store)
    else SetCollapsed(Page(rail, store), Read(store) == Some("1"))
  }

  /** A click on the toggle flips the state. */
  function Toggle(p: Page): (r: Page)
    ensures p.rail.present ==> r.rail.collapsed == !p.rail.collapsed
    ensures !p.rail.present ==> r == p
  {
    SetCollapsed(p, !p.rail.collapsed)
  }

  /** Two clicks bring the rail back to the state it showed. */
  lemma ToggleTwice(p: Page)
    requires p.rail.present ==> Consistent(p.rail)
    ensures Toggle(Toggle(p)).rail == p.rail
  {
  }

  /** Whatever state was last set survives a reload, unless the store fails. */
  lemma ReloadRestores(p: Page, collapsed: bool, reloaded: Rail)
    requires p.rail.present && reloaded.present && !p.store.failing
    ensures Init(reloaded, SetCollapsed(p, collapsed).store).rail.collapsed == collapsed
  {
  }

  /** Toggling and reloading restores the toggled state. */
  lemma ToggleThenReload(rail: Rail, store: Store, reloaded: Rail)
    requires rail.present && reloaded.present && !store.failing
    ensures var p := Toggle(Init(rail, store));
            Init(reloaded, p.store).rail.collapsed == p.rail.collapsed
  {
    ReloadRestores(Init(rail, store), !Init(rail, store).rail.collapsed, reloaded);
  }

  /** Any stored value other than exactly "1", "true" included, loads expanded. */
  lemma OnlyOneMeansCollapsed(rail: Rail, store: Store)
    requires rail.present && Read(store) != Some("1")
    ensures !Init(rail, store).rail.collapsed
  {
  }
}

=== FILE: resorts.dfy ===
/**
 The resort table the chart is built from, and what the chart preparation
 yields for it.
 */
module Resorts {
  import opened Chart
  import opened ChartAxes

  const ResortsData: seq<Resort> := [
    Resort("Dreams Onyx", 102798, 95, 5, "#8A5CFF", "onyx", 3807, false, false),
    Resort("Serenade Punta Cana", 109954, 92, 5, "#2BE7FF", "serenade", 4072, false, false),
    Resort("Iberostar Waves Dominicana", 41460, 74, 4, "#B7FF2B", "iberostar", 1536, false, false),
    Resort("Barceló Bávaro Palace", 46920, 80, 5, "#FFB020", "barcelo", 1738, false, false),
    Resort("Lopesan Costa Bávaro", 116585, 100, 5, "#FF2BD6", "lopesan", 4318, false, false),
    Resort("Nickelodeon Hotels & Resorts Punta Cana", 155000, 103, 5, "#FF6B9D", "nickelodeon", 5741, true, false),
    Resort("Hard Rock Hotel & Casino Punta Cana", 165000, 104, 5, "#FF8C42", "hardrock", 6111, true, false),
    Resort("W Punta Cana (Adult All-Inclusive)", 180000, 108, 5, "#C084FC", "wpunta", 6667, true, false),
    Resort("Eden Roc Cap Cana (Ultra Luxury)", 280000, 112, 5, "#FF6B9D", "edenroc", 10370, true, false)
  ]

  /** No record of the table is the sweet spot, so the radius floor for it
      never applies to the shipped data. */
  lemma NoShippedSweetSpot()
    ensures forall i :: 0 <= i < |ResortsData| ==> !ResortsData[i].isSweetSpot
  {
  }

  const ShippedBoundsValue := Bounds(41460, 280000, 74, 112, 4, 5)

  /** The bounds of the shipped table. */
  lemma ShippedBounds()
    ensures Priced(ResortsData)
    ensures BoundsOf(WithValueIndex(ResortsData)) == ShippedBoundsValue
  {
    var b := ShippedBoundsValue;
    assert forall i :: 0 <= i < |ResortsData| ==> Within(ResortsData[i], b);
    var ps := WithValueIndex(ResortsData);
    assert Prices(ps)[2] == b.minPrice && Prices(ps)[8] == b.maxPrice;
    assert Scores(ps)[2] == b.minScore && Scores(ps)[8] == b.maxScore;
    assert StarRatings(ps)[2] == b.minStars && StarRatings(ps)[0] == b.maxStars;
    BoundsOfTightest(ps, b);
  }

  /** Every shipped value index is positive and every bubble radius lies in
      `[6, 18]`. */
  lemma ShippedPointsInRange()
    ensures Priced(ResortsData)
    ensures var ps := WithValueIndex(ResortsData);
            var b := BoundsOf(ps);
            && NonDegenerate(b)
            && forall i :: 0 <= i < |ps| ==>
                 ps[i].valueIndex > 0.0 && MinRadius <= Radius(ps[i].resort, b) <= MaxRadius
  {
    ShippedBounds();
  }

  /** The shipped price range exceeds 200000, so the axis shows the round
      ticks 50000 to 200000 between the two extreme prices. */
  lemma ShippedPriceTicks()
    ensures Priced(ResortsData)
    ensures var b := BoundsOf(WithValueIndex(ResortsData));
            && b == ShippedBoundsValue
            && PriceTicks(b) == [41460, 50000, 100000, 150000, 200000, 280000]
  {
    ShippedBounds();
    ShippedBoundsTicks();
  }

  lemma ShippedBoundsTicks()
    ensures PriceTicks(ShippedBoundsValue) == [41460, 50000, 100000, 150000, 200000, 280000]
  {
    WidePriceTicks(ShippedBoundsValue);
  }
}

=== FILE: selection.dfy ===
/**
 Index arithmetic shared by the pinned scroll sections: turning scroll
 progress into a slide index, clamping a requested index, and the
 `is-active` class toggled on a list of elements.
 */
module Selection {

  /** `min(n - 1, floor(progress * n))`: the slide a pinned section of `n`
      slides shows at scroll progress `p`. */
  function ProgressToIndex(p: real, n: int): (idx: int)
    ensures 0.0 <= p <= 1.0 && n >= 1 ==> 0 <= idx < n
    ensures idx <= n - 1
  {
    var f := (p * n as real).Floor;
    if n - 1 < f then n - 1 else f
  }

  /** Before the end of the section, slide `k` is shown exactly while the
      progress lies in `[k / n, (k + 1) / n)`. */
  lemma ProgressToIndexInterval(p: real, n: int, k: int)
    requires 0.0 <= p < 1.0 && n >= 1 && 0 <= k < n
    ensures ProgressToIndex(p, n) == k <==> k as real <= p * n as real < (k + 1) as real
  {
    assert p * n as real < n as real;
  }

  /** At the very end of the section the last slide is shown. */
  lemma ProgressAtEnd(n: int)
    requires n >= 1
    ensures ProgressToIndex(1.0, n) == n - 1
  {
  }

  /** Scrolling further never moves back to an earlier slide. */
  lemma ProgressToIndexMonotone(p: real, q: real, n: int)
    requires p <= q && n >= 0
    ensures ProgressToIndex(p, n) <= ProgressToIndex(q, n)
  {
    var x, y := p * n as real, q * n as real;
    assert x <= y;
    assert x.Floor <= y.Floor;
  }

  /** `max(0, min(n - 1, index))`. */
  function Clamp(index: int, n: int): (idx: int)
    requires n >= 1
    ensures 0 <= idx < n
    ensures 0 <= index < n ==> idx == index
    ensures index < 0 ==> idx == 0
    ensures index >= n ==> idx == n - 1
  {
    var m := if n - 1 < index then n - 1 else index;
    if m < 0 then 0 else m
  }

  /** The `is-active` flags after toggling the class on `n` elements with the
      test `i === k`: element `i` is active exactly when `i == k`. */
  function ActiveFlags(n: nat, k: int): (flags: seq<bool>)
    ensures |flags| == n
    ensures forall i :: 0 <= i < n ==> (flags[i] <==> i == k)
  {
    seq(n, i => i == k)
  }

  /** The number of active elements. */
  function CountActive(flags: seq<bool>): nat {
    if flags == [] then 0 else (if flags[0] then 1 else 0) + CountActive(flags[1..])
  }

  /** Exactly one element is active when `k` names one of them, none otherwise. */
  lemma {:induction false} ExactlyOneActive(n: nat, k: int)
    ensures CountActive(ActiveFlags(n, k)) == (if 0 <= k < n then 1 else 0)
  {
    if n > 0 {
      var flags := ActiveFlags(n, k);
      ExactlyOneActive(n - 1, k - 1);
      assert flags[1..] == ActiveFlags(n - 1, k - 1);
    }
  }

  /** `k % n` for a list of `n > 0` entries: always an index of the list. */
  function Wrap(k: int, n: int): (r: int)
    requires n > 0
    ensures 0 <= r < n
    ensures 0 <= k < n ==> r == k
  {
    k % n
  }

  /** `(step + 1) % n`: the next index, wrapping to 0 after the last one. */
  function Succ(step: int, n: int): (r: int)
    requires n > 0
    ensures 0 <= r < n
    ensures 0 <= step < n ==> r == if step + 1 < n then step + 1 else 0
  {
    assert 0 <= step < n ==> (step + 1) % n == if step + 1 < n then step + 1 else 0 by {
      if 0 <= step < n {
        if step + 1 < n { ModUnique(step + 1, n, 0, step + 1); } else { ModUnique(step + 1, n, 1, 0); }
      }
    }
    (step + 1) % n
  }

  /** Advancing a wrapped counter is wrapping the advanced counter. */
  lemma SuccOfWrap(k: int, n: int)
    requires n > 0
    ensures Succ(Wrap(k, n), n) == Wrap(k + 1, n)
  {
    var q, r := k / n, k % n;
    assert k == q * n + r;
    if r + 1 < n {
      ModUnique(k + 1, n, q, r + 1);
    } else {
      assert k + 1 == (q + 1) * n;
      ModUnique(k + 1, n, q + 1, 0);
    }
  }

  /** The remainder is the unique `r` in `[0, n)` with `a == q * n + r`. */
  lemma ModUnique(a: int, n: int, q: int, r: int)
    requires n > 0 && 0 <= r < n && a == q * n + r
    ensures a % n == r
  {
    var q', r' := a / n, a % n;
    var d := q - q';
    assert d * n == r' - r by {
      assert a == q' * n + r';
      assert q * n - q' * n == (q - q') * n;
    }
    if d > 0 {
      MulAtLeast(d, n);
    } else if d < 0 {
      MulAtLeast(-d, n);
    }
  }

  lemma MulAtLeast(d: int, n: int)
    requires d >= 1 && n > 0
    ensures d * n >= n
  {
    assert d * n == (d - 1) * n + n;
    assert (d - 1) * n >= 0;
  }
}

=== FILE: sorting.dfy ===
/**
 The stable ascending sort `Array.prototype.sort` performs with a numeric
 comparator `(a, b) => key(a) - key(b)`, written as insertion sort.
 */
module Sorting {

  ghost predicate SortedBy<T>(s: seq<T>, key: T -> int) {
    forall i, j :: 0 <= i < j < |s| ==> key(s[i]) <= key(s[j])
  }

  /** The elements of `s` whose key is `v`, in their order in `s`. */
  function WithKey<T>(s: seq<T>, key: T -> int, v: int): (r: seq<T>)
    ensures |r| <= |s|
  {
    if s == [] then []
    else (if key(s[0]) == v then [s[0]] else []) + WithKey(s[1..], key, v)
  }

  /** No key in `s` is below `m`. */
  ghost predicate AtLeast<T>(s: seq<T>, key: T -> int, m: int) {
    forall i :: 0 <= i < |s| ==> m <= key(s[i])
  }

  /** `x` placed in sorted `s` before the first element whose key is not
      below its own. */
  function Insert<T>(x: T, s: seq<T>, key: T -> int): (r: seq<T>)
    requires SortedBy(s, key)
    ensures SortedBy(r, key)
    ensures multiset(r) == multiset(s) + multiset{x}
    ensures |r| == |s| + 1
    ensures forall m :: AtLeast(s, key, m) && m <= key(x) ==> AtLeast(r, key, m)
  {
    if s == [] then [x]
    else if key(x) <= key(s[0]) then [x] + s
    else
      SortedTail(s, key);
      var t := Insert(x, s[1..], key);
      assert s == [s[0]] + s[1..];
      SortedCons(s[0], t, key);
      [s[0]] + t
  }

  /** The tail of a sorted list is sorted, bounded below by the head, and
      keeps every lower bound of the whole. */
  lemma SortedTail<T>(s: seq<T>, key: T -> int)
    requires SortedBy(s, key) && s != []
    ensures SortedBy(s[1..], key) && AtLeast(s[1..], key, key(s[0]))
    ensures forall m :: AtLeast(s, key, m) ==> AtLeast(s[1..], key, m)
  {
  }

  /** A head no greater than anything in a sorted tail gives a sorted list,
      bounded below by every bound of the tail that the head meets. */
  lemma SortedCons<T>(h: T, t: seq<T>, key: T -> int)
    requires SortedBy(t, key) && AtLeast(t, key, key(h))
    ensures SortedBy([h] + t, key)
    ensures forall m :: AtLeast(t, key, m) && m <= key(h) ==> AtLeast([h] + t, key, m)
  {
    var r := [h] + t;
    assert forall i :: 1 <= i < |r| ==> r[i] == t[i - 1];
  }

  /** The input rearranged into non-decreasing key order. */
  function Sort<T>(s: seq<T>, key: T -> int): (r: seq<T>)
    ensures SortedBy(r, key)
    ensures multiset(r) == multiset(s)
    ensures |r| == |s|
  {
    if s == [] then []
    else
      assert s == [s[0]] + s[1..];
      Insert(s[0], Sort(s[1..], key), key)
  }

  lemma WithKeyCons<T>(h: T, t: seq<T>, key: T -> int, v: int)
    ensures WithKey([h] + t, key, v) == (if key(h) == v then [h] else []) + WithKey(t, key, v)
  {
    assert ([h] + t)[0] == h && ([h] + t)[1..] == t;
  }

  lemma {:induction false} InsertWithKey<T>(x: T, s: seq<T>, key: T -> int, v: int)
    requires SortedBy(s, key)
    ensures WithKey(Insert(x, s, key), key, v) ==
            (if key(x) == v then [x] else []) + WithKey(s, key, v)
  {
    if s == [] {
      assert Insert(x, s, key) == [x] + s;
      WithKeyCons(x, s, key, v);
    } else if key(x) <= key(s[0]) {
      assert Insert(x, s, key) == [x] + s;
      WithKeyCons(x, s, key, v);
    } else {
      SortedTail(s, key);
      InsertWithKey(x, s[1..], key, v);
      var t := Insert(x, s[1..], key);
      assert Insert(x, s, key) == [s[0]] + t;
      WithKeyCons(s[0], t, key, v);
      WithKeyCons(s[0], s[1..], key, v);
      assert [s[0]] + s[1..] == s;
      if key(s[0]) == v {
        assert key(x) != v;
      } else if key(x) == v {
        assert WithKey(s, key, v) == WithKey(s[1..], key, v);
      }
    }
  }

  /** The sort is stable: for every key, the elements having it appear in the
      output in the same order as in the input. */
  lemma {:induction false} SortStable<T>(s: seq<T>, key: T -> int, v: int)
    ensures WithKey(Sort(s, key), key, v) == WithKey(s, key, v)
  {
    if s != [] {
      SortStable(s[1..], key, v);
      InsertWithKey(s[0], Sort(s[1..], key), key, v);
    }
  }
}

=== FILE: wrappers.dfy ===
/** Optional values: an attribute, a child element or a stored item that may be absent. */
module Wrappers {

  datatype Option<+T> = None | Some(value: T) {

    /** The wrapped value, or `default` when there is none. */
    function GetOr(default: T): T {
      match this
      case Some(v) => v
      case None => default
    }
  }
}
